=== FILE: README.md ===
# CRUD-Nodejs request layer in Dafny

This project models the request-decision layer of a small Express/Mongoose
backend. The backend has two resources, users and courses. The model covers:

- the token gate `verifyToken`;
- the avatar upload of the users router: multer's `single('avatar')` with an
  image-only file filter and generated file names;
- user registration, login and listing;
- the user schema: defaults, the role enumeration, the one required field and
  email uniqueness;
- the course handlers: list, get, add, update and delete;
- the course body validation schema.

Every handler is a pure function. It returns either an error record
`{message, statusCode, statusText}`, the shape `appError.create` builds and the
handler forwards with `next(error)`, or a success answer with an HTTP code and
its `data`. Handlers that write return the collection they leave behind.
Collections are sequences of documents in natural order, which is the order
`find().skip().limit()` pages through.

These library calls are parameters:

- the password hasher and comparer (`bcrypt.hash`, with its random salt made
  an explicit argument, and `bcrypt.compare`);
- the token signer (`generateJWT`);
- the token verifier (`jwt.verify`, with the secret and the clock folded in);
- the email-format check (`validator.isEmail`);
- the clock (`Date.now()`, passed as `now`).

Facts about these calls appear only as preconditions of the lemmas that need
them. One example: `HashSound` says a password matches every hash made from it.

Exceptions thrown inside the handlers are forwarded by the async wrapper.
They are modelled as `Thrown(fault)` failures:

- bcrypt called on a missing password;
- reading `req.file.filename` when nothing was uploaded;
- a Mongoose validation error;
- a duplicate key;
- a negative skip.

Multer's unexpected-field error is also a `Thrown` failure. No wrapper is
involved there: multer passes its own error to `next(err)`, as it does the
file filter's error.

Files by module:

- `wrappers.dfy`: `Option`, standing for `undefined`.
- `text.dfy`: JavaScript truthiness, `split` with a one-character separator and
  its inverse `join`, and decimal rendering and parsing.
- `json_value.dfy`: body values: strings, numbers (held as their JavaScript
  text), booleans, `null` and nested objects.
- `app_errors.dfy`: error records, faults, and the outcomes of middleware and
  handlers.
- `collection.dfy`: the effects of the store operations.
- `pagination.dfy`: `limit`, `page` and `skip`.
- `user_model.dfy`: the user schema.
- `verify_token.dfy`: the token gate.
- `upload.dfy`: the avatar filter and disk-storage naming.
- `users_controller.dfy`: user listing, registration and login.
- `users_routes.dfy`: middleware order on the user routes.
- `validation_schema.dfy`: the course body validation.
- `courses_controller.dfy`: the course handlers.

Behaviour kept as written:

- Login refuses missing credentials only when email and password are both
  falsy.
- A password mismatch is a 500 "Somthing wrong".
- The header value is split on a space and the second word is used. The scheme
  word is never checked.
- The error messages keep their exact spelling ("token is require", "email or
  password are require").
- The file-filter error is created with two arguments, so it has no status
  text.
- A mimetype with no `/` that is exactly `image` is accepted. Its stored name
  then ends in `.undefined`, because that is how a template literal renders a
  missing array element.
- Query strings are truthy whenever they are present and non-empty, even
  `"0"`. So `page=0` with a non-zero limit gives a negative skip, which the
  store refuses. A `limit` of 0 means no limit, and with `page=0` the skip is
  then `-0`, which skips nothing.
- express-validator does not stop at the first failed check. An empty or
  missing title therefore yields two errors ("not empty" and "too short"), and
  a one-character title yields one.

Notes from the model:

- A registered user's avatar is the bare generated file name
  (`user-<now>.<subtype>`). The schema default is `uploads/avatar.jpg`, with
  the directory. Registration always supplies a name, so that default is never
  used on that path.
- Two uploads in the same millisecond with the same subtype get the same name
  (`AvatarUpload.OriginalNameUnused`). Distinct milliseconds never collide
  (`AvatarUpload.DistinctTimesDistinctNames`).
- The listing returns whole user documents, password hashes and tokens
  included.
- Multer drops a file part whose client file name is empty before it looks at
  the field name or runs the filter. Registration then goes on as if no file
  was sent, and fails, at the latest on `req.file.filename` (a taken email or
  a missing password fails earlier).

## Model

| member | source | states |
|---|---|---|
| VerifyToken.Gate | middleware/verifyToken.js:4-24 | each call ends in exactly one of two ways: a 401 with "token is require" or "Invalid token", or proceeding with a request that differs from the input only in its `currentUser`, which is set |
| VerifyToken.AuthorizationHeader | middleware/verifyToken.js:5-6 | the header is present (truthy) exactly when `Authorization` or `authorization` holds a non-empty value; a non-empty `Authorization` wins, and otherwise the `authorization` entry is used as it is |
| VerifyToken.TokenRequiredIffNoHeader | middleware/verifyToken.js:5-10 | "token is require" (401, ERROR) is produced if and only if neither header spelling holds a non-empty value |
| VerifyToken.NoHeaderSkipsVerification | middleware/verifyToken.js:7-10 | with no header, the verdict does not depend on the verifier, so verification is never reached |
| VerifyToken.BearerToken | middleware/verifyToken.js:12 | a token is extracted exactly when the header contains a space; it is the run of non-space characters right after the first space, possibly empty |
| Text.FirstPiece | routes/users.route.js:20 | the first piece of a split is the longest prefix free of the separator |
| Text.SecondPiece | middleware/verifyToken.js:12 | the second piece of a split exists exactly when the separator occurs, and is the first piece of what follows the first separator |
| VerifyToken.BearerTokenIsSecondWord | middleware/verifyToken.js:12 | for a header `scheme + " " + token` without other spaces, the extracted token is exactly `token` |
| VerifyToken.NoSpaceNoToken | middleware/verifyToken.js:12 | a header with no space has no second segment, so no token is extracted |
| VerifyToken.InvalidTokenIff | middleware/verifyToken.js:13-19 | "Invalid token" (401, ERROR) is produced if and only if the header is present and either there is no second segment or the verifier refuses it; all such failures give the same record |
| VerifyToken.ProceedIff | middleware/verifyToken.js:14-16 | the request proceeds with `currentUser` equal to the given claims, and nothing else changed, if and only if the verifier decodes the second segment to those claims |
| VerifyToken.SchemeIgnored | middleware/verifyToken.js:12-16 | under `"<any word> <token>"` the gate proceeds exactly when the verifier accepts `token`, and attaches what it decoded; the scheme word is never checked |
| VerifyToken.AcceptedTokenOpensGate | middleware/verifyToken.js:12-16 | `Bearer <t>`, where the verifier decodes `t` to some claims, opens the gate with exactly those claims |
| Text.JoinSplit | middleware/verifyToken.js:12 | joining the pieces of `split` with the separator gives back the original string |
| Text.SplitJoin | routes/users.route.js:14 | splitting a join of separator-free pieces gives back exactly those pieces, which is the inverse direction |
| Text.ParseNatToString | routes/users.route.js:15 | reading back the decimal rendering of a timestamp gives the timestamp |
| AvatarUpload.FileFilter | routes/users.route.js:19-26 | the filter either accepts with no error, or rejects with `{"the file must be an image", 400}` (no status text) and acceptance `false` |
| AvatarUpload.AcceptsExactlyImages | routes/users.route.js:19-22 | a file is accepted if and only if its mimetype is `image` or begins with `image/`, that is, the part before the first `/` equals `image` |
| AvatarUpload.ImagePrefixMediaType | routes/users.route.js:20-21 | a mimetype beginning `image/` has `image` as its part before the first slash |
| AvatarUpload.PdfRefused | routes/users.route.js:23-25 | `application/pdf` is rejected with the image error and acceptance `false` |
| AvatarUpload.PngName | routes/users.route.js:9-17 | an `image/png` upload is accepted, named `user-<now>.png`, and sent to `uploads` |
| AvatarUpload.TimestampOfFilename | routes/users.route.js:13-17 | the generated name gives its timestamp back, whatever the mimetype |
| AvatarUpload.DistinctTimesDistinctNames | routes/users.route.js:15 | uploads at different milliseconds never get the same stored name |
| AvatarUpload.OriginalNameUnused | routes/users.route.js:13-17 | the stored name depends only on the time and the subtype, never on the client's file name |
| AvatarUpload.Single | routes/users.route.js:8-27 | with no part, or a part with an empty file name, the request goes on with no file; a named part under another field is multer's unexpected-field error; a failure is the image error or that error; a stored file was accepted by the filter, sits in `uploads` and carries the generated name |
| AvatarUpload.SingleAvatarIff | routes/users.route.js:19-27 | a named `avatar` part lets the request go on, with a stored file, if and only if it is an image; otherwise the request stops with the image error; an unnamed part is dropped |
| AvatarUpload.MediaType | routes/users.route.js:20 | the media type is the longest prefix of the mimetype without a `/`: it stops at the first `/` or at the end |
| AvatarUpload.Subtype | routes/users.route.js:14-15 | with no `/` the subtype renders as `undefined`; otherwise it is the text after the first `/`, up to the next `/` or the end |
| AvatarUpload.Destination | routes/users.route.js:9-12 | every file goes to the directory `uploads`, whatever the file |
| AvatarUpload.Filename | routes/users.route.js:13-17 | the name starts with `user-`, ends with `.` and the subtype, and the characters between are decimal digits, with no leading zero, that read back as the timestamp |
| Text.NatToString | routes/users.route.js:15 | a number renders as a non-empty run of decimal digits that starts with `0` only when the number is 0, so it is never zero-padded |
| AvatarUpload.TimestampOfName | routes/users.route.js:15 | in a name `user-<digits>.<anything>` the digits before the first dot read back as the number they spell |
| AvatarUpload.ImageNamed | routes/users.route.js:13-22 | an image mimetype with subtype `ext` is accepted and named `user-<now>.<ext>` |
| UsersRoutes.ListingNeedsToken | routes/users.route.js:31 | `GET /` without an Authorization header answers "token is require" whatever the store holds, because the gate runs before `getAllUsers` |
| UsersRoutes.ListUsers | routes/users.route.js:31 | users are listed only for a request that carries an Authorization header; a gate failure is forwarded as it is; when the gate lets the request through, the answer is `getAllUsers` on the request's query; the only failures are the two 401 records and the negative-skip fault |
| UsersRoutes.NonImageStopsRegistration | routes/users.route.js:33 | the upload runs before `register`: a named non-image avatar is refused with the image error even when the email is taken, and the store is unchanged; an unnamed one is dropped and `register` runs with no file |
| UsersRoutes.RegisterRoute | routes/users.route.js:33 | an upload failure is forwarded as it is and leaves the users collection unchanged; an upload that goes on hands its stored file (or none) to `register`, whose result is the route's; a success needs an avatar part the filter accepted, appends exactly the new user, and stores the upload's generated name as its avatar |
| UsersRoutes.RegisterLoginList | routes/users.route.js:31-34 | a new user with valid fields and a named image under `avatar` is registered with the generated avatar name; logging in with the same email and password returns a token on the stored `{email, id, role}`; that token opens the listing, and `limit=0` lists every user with the new one last |
| UsersRoutes.LoginRoute | routes/users.route.js:34 | login never answers with the gate's 401 errors, because no gate runs before it; a success is a 200 with a token |
| UsersRoutes.LoginUnprotected | routes/users.route.js:34 | the login answer does not depend on the request headers; no gate runs |
| UsersRoutes.RegisteredAvatarName | controllers/users.controller.js:39 | a registered user's avatar is the generated `user-<now>.<subtype>` name of the uploaded file |
| UsersRoutes.LoginTokenOpensListing | routes/users.route.js:31-34 | the token the login route returns, sent back as `Bearer <token>` while still valid, opens `GET /` with `currentUser` equal to the user's `{email, id, role}` |
| UsersController.GetAllUsers | controllers/users.controller.js:8-17 | the listing is a 200 answer holding exactly the users from the skip on, at most `limit` of them (all when the limit is 0), or a negative-skip fault exactly when the computed skip is negative |
| UsersController.UsersPage | controllers/users.controller.js:11-16 | page `p` of size `l` lists exactly the users at positions `(p-1)*l` up to, not including, `p*l`, in natural order; `limit=0` lists every user |
| Pagination.Limit | controllers/users.controller.js:11 | an absent limit is 10, a present one is used as given, and the limit is 0 only when the query asks for 0 |
| Pagination.PageNumber | controllers/users.controller.js:12 | an absent page is 1 and a present one is used as given |
| Pagination.Skip | controllers/users.controller.js:14 | the skip is negative exactly on page 0 with a non-zero limit; on page 0 it is minus the limit, so with limit 0 nothing is skipped; it is zero on page 1, and otherwise the earlier pages' total |
| Pagination.PageZeroNoLimit | controllers/users.controller.js:11-15 | `page=0&limit=0` gives a skip of `-0`, and the listing is the whole collection |
| Collection.Slice | controllers/users.controller.js:15 | skipping then limiting keeps the documents from the skip on, in order, at most `limit` of them, all of them when the limit is 0 |
| Pagination.FetchPage | controllers/users.controller.js:11-15 | refused exactly when `(page - 1) * limit` is negative; otherwise at most `limit` documents, all taken from the collection |
| Pagination.DefaultsGiveFirstTen | controllers/users.controller.js:11-14 | with neither `limit` nor `page`, the limit is 10, the skip is 0, and the listing is the first ten documents |
| Pagination.PageWindow | controllers/courses.controller.js:9-13 | page `p` of size `l` lists exactly the documents from position `(p-1)*l` up to, not including, `p*l` |
| Pagination.DocOnItsPage | controllers/courses.controller.js:12-13 | document `i` appears on page `i / l + 1` at position `i % l` |
| Pagination.PagesAreDisjoint | controllers/users.controller.js:14-15 | every document listed on page `p` has `p` as its page, so no document is listed on two pages |
| UsersController.Register | controllers/users.controller.js:19-49 | a failure leaves the store unchanged; a success answers 201 with the new user and appends exactly that user |
| UsersController.RegisterExistingEmail | controllers/users.controller.js:22-30 | a known email yields `{"user already exists", 400, FAIL}` with the store unchanged, whatever the hasher, signer, salt or fresh id, so nothing is hashed, signed or saved |
| UsersController.RegisterSucceedsIff | controllers/users.controller.js:19-45 | registration succeeds if and only if all of these hold: the email is new; a password and an upload are present; the first name is non-empty; the role (defaulting to USER) is listed; a given email passes the format check; the fresh id is unused |
| UsersController.NewDoc | controllers/users.controller.js:32-43 | the new document has the fresh id, the body's names and email, the 10-round hash of the password, the uploaded file's name as avatar, the role defaulted to USER, and a token signed on its own `{email, id, role}` |
| UsersController.RegisterStores | controllers/users.controller.js:32-43 | a stored user has the hash of the password with 10 rounds, the uploaded file's name as avatar, the role defaulted to USER, and a token signed on its own `{email, id, role}` |
| UsersController.Save | controllers/users.controller.js:45 | saving succeeds if and only if the user passes schema validation and its id and email are new; it then appends exactly that document, and otherwise changes nothing |
| UsersController.RegisterPreservesInvariant | models/user.model.js:14-17 | registration keeps ids unique, emails unique and every stored user valid |
| UsersController.Login | controllers/users.controller.js:51-75 | a success is a 200 carrying a token; every failure is one of: missing credentials, user not found, password mismatch, or a bcrypt fault; login returns no collection, so it never writes |
| UsersController.CredentialsRequiredIff | controllers/users.controller.js:53-60 | `{"email or password are require", 400, FAIL}` is produced if and only if email and password are both falsy |
| UsersController.EmptyPasswordPassesCheck | controllers/users.controller.js:53 | an email with an empty password is not refused for missing credentials |
| UsersController.LoginUnknownEmail | controllers/users.controller.js:61-65 | past the credentials check, `{"user not found", 400, FAIL}` is produced if and only if no stored user has that email |
| UsersController.LoginPasswordCheck | controllers/users.controller.js:66-74 | a matching password yields 200 with a token on the stored user's `{email, id, role}`; a mismatch yields `{"Somthing wrong", 500, ERROR}` |
| UsersController.RegisterThenLogin | controllers/users.controller.js:61-70 | with a sound hasher, logging in with the credentials just registered succeeds, with a token on the same claims as the stored user's token |
| UserModel.Construct | models/user.model.js:27-35 | an unset role becomes USER; an unset avatar becomes `uploads/avatar.jpg`; the token starts unset; every other field is kept as given |
| UserModel.Valid | models/user.model.js:6-35 | a valid user has a non-empty first name and a role among USER, ADMIN and MANAGER; a present email the format check refuses makes the user invalid |
| UserModel.FindByEmail | controllers/users.controller.js:22 | a found user is a stored user with that email; when none is found, no stored user has that email |
| Collection.FindOne | controllers/users.controller.js:61 | `findOne` finds a document exactly when one matches, and returns the first match |
| UserModel.OnlyFirstNameRequired | models/user.model.js:6-23 | a user with nothing but a first name is valid if and only if that first name is non-empty, so last name, email and password are not required |
| UserModel.DefaultRoleIsListed | models/user.model.js:27-30 | a user built with no role, or with a listed role, passes the role enumeration |
| UserModel.StoredRolesListed | models/user.model.js:27-29 | under the store invariant, every stored role is USER, ADMIN or MANAGER |
| UserModel.FindByEmailUnique | models/user.model.js:14-17 | with unique emails, looking up a stored user's email finds that very user |
| CoursesController.GetAllCourses | controllers/courses.controller.js:6-15 | the listing is a 200 answer holding exactly the courses from the skip on, at most `limit` of them (all when the limit is 0), or a negative-skip fault exactly when the computed skip is negative |
| CoursesController.CoursesPage | controllers/courses.controller.js:9-14 | page `p` of size `l` lists exactly the courses at positions `(p-1)*l` up to, not including, `p*l`, in natural order; `limit=0` lists every course |
| CoursesController.GetCourse | controllers/courses.controller.js:17-26 | a 200 answer happens if and only if the id is stored, and then carries that stored course unchanged; otherwise `{"NOT FOUND COURSE", 404, FAIL}` |
| Collection.FindById | controllers/courses.controller.js:18 | a document is found if and only if one with that id is stored, and the found document is a stored one with that id |
| CoursesController.AddCourse | controllers/courses.controller.js:28-40 | a non-empty error list yields a 400 FAIL carrying that list with nothing saved; a success happens if and only if there are no errors and the id is fresh, and then appends the body under the new id and answers 201 with it |
| CoursesController.PostCourse | routes/courses.route.js:9-11 | validation runs before `addCourse`: a post succeeds exactly when the title has at least 2 characters, the price is non-empty and the id is fresh; failed validation answers 400 with the error list and saves nothing |
| CoursesController.AddThenGet | controllers/courses.controller.js:35-39 | a course that passed validation and was saved can be read back exactly as given, and ids stay unique |
| CoursesController.ShortTitleNeverSaved | middleware/validationSchema.js:4 | a title shorter than two characters makes the post fail with a 400 and leaves the collection unchanged |
| CoursesController.Merge | controllers/courses.controller.js:44-47 | after a merge every body field has the body's value, every other field keeps its value, and no other key appears |
| Collection.UpdateOne | controllers/courses.controller.js:44-47 | only the document with that id changes; positions and ids are kept |
| CoursesController.UpdateCourse | controllers/courses.controller.js:42-55 | always 200 with the write result; the matched count is 1 exactly when the id is stored; an unknown id leaves the collection unchanged |
| CoursesController.UpdateThenGet | controllers/courses.controller.js:44-47 | reading the course back after an update gives its old fields with exactly the body's fields overwritten; other courses are unchanged and ids stay unique |
| CoursesController.UpdateIdempotent | controllers/courses.controller.js:44-47 | repeating the same update changes nothing and reports zero modified documents |
| CoursesController.DeleteCourse | controllers/courses.controller.js:57-60 | always 200 with `data: null`; with unique ids the course is gone afterwards; every other course is kept and nothing new appears |
| Collection.DeleteOne | controllers/courses.controller.js:58 | an absent id leaves the collection unchanged; otherwise exactly the first document with that id is cut out and the others keep their order |
| CoursesController.DeleteThenGet | controllers/courses.controller.js:58-59 | after a delete, reading the course gives "NOT FOUND COURSE" |
| ValidationSchema.Validate | middleware/validationSchema.js:2-6 | every error concerns `title` or `price` |
| ValidationSchema.ValidIff | middleware/validationSchema.js:3-5 | a body has no errors if and only if its title has at least 2 characters and its price is non-empty |
| ValidationSchema.TitleErrorCount | middleware/validationSchema.js:4 | an empty or missing title fails both title checks, a one-character title fails one, and two or more characters pass |
| ValidationSchema.TitleErrors | middleware/validationSchema.js:4 | title errors concern `title` and carry the default message "Invalid value" |
| ValidationSchema.PriceErrors | middleware/validationSchema.js:5 | price errors concern `price` and say "price is required" |
| ValidationSchema.PriceCheck | middleware/validationSchema.js:5 | the "price is required" error appears if and only if the price is empty or missing; any non-empty price passes |
| ValidationSchema.AnyNumberIsAPrice | middleware/validationSchema.js:5 | any number passes the price check, negative and fractional ones included, because there is no type or range check |
| ValidationSchema.ObjectsPass | middleware/validationSchema.js:4-5 | a nested object is read as `[object Object]`, so a body whose title and price are objects passes both checks |
| JsonValue.ToText | middleware/validationSchema.js:4-5 | a value reads as empty exactly when it is the empty string or `null`; a number reads as its JavaScript text |
| ValidationSchema.OtherFieldsIgnored | middleware/validationSchema.js:3-5 | bodies that agree on `title` and `price` get the same errors, so no other field is ever checked |

## Left out

- Cryptography is left out. bcrypt hashing and comparison, JWT signing and JWT
  verification (signature and expiry) are function parameters.
- That two hashes of one password differ (salting) is not stated. The salt is
  an input, and nothing is assumed about the hasher beyond `HashSound` where a
  lemma needs it.
- The verifier gets no separate treatment for the empty string or other
  malformed tokens. Whatever the parameter refuses becomes "Invalid token".
- Node lower-cases incoming header names. The model takes the header map as
  given, so the `Authorization` spelling is treated as possible.
- Most Mongoose query mechanics are left out: query casting, malformed-id
  cast errors, the `{__v: false}` projection, and the shortcut Mongoose takes
  for an empty `$set`.
- A lookup by a missing email is modelled as matching a stored user whose
  email is also missing.
- `models/course.model.js` is not part of this model. A course is stored as its
  request body, and every body field is kept on create and on update.
- `validator.isEmail` is a parameter.
- Only the effect of express-validator's `notEmpty` and `isLength` is modelled,
  as length checks on the field's text. Array-valued fields, objects with
  their own `toString`, and the variation-selector adjustment of `isLength`
  are not modelled. A number is held as the text JavaScript gives it, so how
  JSON parsing turns number literals into that text is not modelled.
- AvatarUpload.Single: a request carries at most one file part. multer's
  `single('avatar')` refuses any further file part (a second `avatar`, or a
  file under another field) with `LIMIT_UNEXPECTED_FILE` and removes the file
  it already stored; requests with several file parts are not modelled.
- Multer's disk I/O is not modelled. That includes the avatar file orphaned on
  disk when registration fails after the upload.
- `Date.now()` is the `now` parameter.
- Query parameters are naturals, or absent when missing or empty. JavaScript's
  coercion of non-numeric strings (NaN) is not modelled.
- `index.js` is process start-up only. It mounts only the courses router and
  installs no error-handling middleware, so the user routes are not reachable
  in the running app as written. The default Express error response is not
  modelled.
- `routes/courses.route.js` is route wiring only. Its one ordering fact,
  validation before `addCourse`, is kept as `CoursesController.PostCourse`.
- `utils/appError`, `utils/httpStatusText`, `utils/userRoles`,
  `utils/generateJWT` and `middleware/asyncWrapper` are not part of this
  model. Status texts and roles are enumeration constants. An exception caught
  by the async wrapper is a `Thrown` failure.
- The check-then-insert race between two concurrent registrations with one
  email is not modelled. The model is sequential, and the unique index at
  save time is the backstop.
- `console.log` calls are left out.
- VerifyToken.Gate: the claims attached to the request are `{email, id,
  role}` only. `jwt.verify` returns the whole payload, which also carries the
  `iat` and `exp` times the signer adds; those are not modelled.
- UsersController.Login: the body fields `email` and `password` are strings
  or missing, and so are the register body's fields. `express.json()` can also
  deliver JSON `null`, numbers, booleans and objects. None of these is
  modelled: not an object `findOne` reads as a query operator (such as
  `{"$ne": null}`, which matches the first user with an email), and not a
  numeric password, on which `bcrypt.compare` throws.
- UsersController.RegisterThenLogin: signing is modelled as a function of the
  claims alone. The real tokens also carry an issue time, so only the claims,
  and not the token text, are the same.

=== FILE: app_errors.dfy ===
/** The error record `appError.create(message, statusCode, statusText)` builds,
    the faults library calls throw, and the two ways a middleware or handler
    can end: forwarding a failure with `next(error)` or answering. */
module AppErrors {
  import opened Wrappers
  import opened JsonValue

  datatype StatusText = SUCCESS | FAIL | ERROR

  /** One entry of express-validator's error list. */
  datatype FieldError = FieldError(path: string, msg: string, value: Option<Value>)

  /** An error message is a text, or (for body validation) the list of field errors. */
  datatype Message = Text(text: string) | Errors(errors: seq<FieldError>)

  /** `statusText` is `None` when `appError.create` is called with two arguments. */
  datatype AppError = AppError(message: Message, statusCode: nat, statusText: Option<StatusText>)

  /** Exceptions: those thrown inside a handler and caught by the async
      wrapper (bcrypt's illegal-argument errors, reading `req.file.filename`
      with no upload, Mongoose schema validation, a duplicate key on insert, a
      negative skip), and multer's unexpected-field error, which multer passes
      to `next(err)` itself. */
  datatype Fault =
    | MissingUpload
    | HashArguments
    | CompareArguments
    | SchemaValidation
    | DuplicateKey
    | NegativeSkip
    | UnexpectedField(field: string)

  datatype Failure = Raised(error: AppError) | Thrown(fault: Fault)

  /** End of a middleware: call `next()` with a value for the next stage, or `next(error)`. */
  datatype Flow<T> = Proceed(value: T) | Halt(failure: Failure)

  /** End of a handler: a success envelope `{status: SUCCESS, data}` with an
      HTTP code, or a failure forwarded with `next(error)`. */
  datatype Outcome<P> = Respond(code: nat, data: P) | Forward(failure: Failure)

  /** A handler's outcome together with the collection it leaves behind. */
  datatype Step<P, S> = Step(outcome: Outcome<P>, store: S)

  function Create(message: string, code: nat, text: StatusText): AppError {
    AppError(Text(message), code, Some(text))
  }
}

=== FILE: collection.dfy ===
/** A Mongo collection as the handlers see it: documents with a
    store-assigned identifier, kept in natural (insertion) order. Only the
    effects of `findOne`, `findById`, `find().limit().skip()`, `save`,
    `updateOne` and `deleteOne` are modelled. */
module Collection {
  import opened Wrappers

  type Id = nat

  datatype Doc<F> = Doc(id: Id, fields: F)

  predicate HasId<F>(docs: seq<Doc<F>>, id: Id) {
    exists k :: 0 <= k < |docs| && docs[k].id == id
  }

  /** The unique `_id` index. */
  predicate UniqueIds<F>(docs: seq<Doc<F>>) {
    forall i, j :: 0 <= i < j < |docs| ==> docs[i].id != docs[j].id
  }

  /** Position of the first document (in natural order) that matches `p`. */
  function FindFirst<F>(docs: seq<Doc<F>>, p: Doc<F> -> bool): (r: Option<nat>)
    ensures r.Some? ==> r.value < |docs| && p(docs[r.value])
    ensures r.Some? ==> forall k :: 0 <= k < r.value ==> !p(docs[k])
    ensures r.None? ==> forall k :: 0 <= k < |docs| ==> !p(docs[k])
  {
    if |docs| == 0 then None
    else if p(docs[0]) then Some(0)
    else
      match FindFirst(docs[1..], p)
      case None => None
      case Some(i) => Some(i + 1)
  }

  /** `findOne(filter)`: the first matching document, or `null`. */
  function FindOne<F>(docs: seq<Doc<F>>, p: Doc<F> -> bool): (r: Option<Doc<F>>)
    ensures r.Some? <==> exists k :: 0 <= k < |docs| && p(docs[k])
    ensures r.Some? ==> r.value in docs && p(r.value)
    ensures r.Some? ==> exists k :: 0 <= k < |docs| && docs[k] == r.value && forall j :: 0 <= j < k ==> !p(docs[j])
  {
    match FindFirst(docs, p)
    case None => None
    case Some(i) => Some(docs[i])
  }

  /** Appending a matching document to a collection with no match makes it the one found. */
  lemma FindOneAppend<F>(docs: seq<Doc<F>>, d: Doc<F>, p: Doc<F> -> bool)
    requires FindOne(docs, p).None?
    requires p(d)
    ensures FindOne(docs + [d], p) == Some(d)
  {
    var all := docs + [d];
    var r := FindFirst(all, p);
    assert p(all[|docs|]);
    assert r.Some?;
  }

  function ById<F>(id: Id): Doc<F> -> bool {
    (d: Doc<F>) => d.id == id
  }

  /** `findById(id)`. */
  function FindById<F>(docs: seq<Doc<F>>, id: Id): (r: Option<Doc<F>>)
    ensures r.Some? <==> HasId(docs, id)
    ensures r.Some? ==> r.value in docs && r.value.id == id
  {
    FindOne(docs, ById<F>(id))
  }

  /** `deleteOne({_id: id})`: removes the first document with that id, if any. */
  function DeleteOne<F>(docs: seq<Doc<F>>, id: Id): (r: seq<Doc<F>>)
    ensures !HasId(docs, id) ==> r == docs
    ensures HasId(docs, id) ==> |r| == |docs| - 1
    ensures forall d :: d in r ==> d in docs
    ensures forall d :: d in docs && d.id != id ==> d in r
    ensures UniqueIds(docs) ==> UniqueIds(r) && !HasId(r, id)
    ensures HasId(docs, id) ==>
      exists i :: 0 <= i < |docs| && docs[i].id == id && (forall k :: 0 <= k < i ==> docs[k].id != id) && r == docs[..i] + docs[i + 1..]
  {
    match FindFirst(docs, ById<F>(id))
    case None => docs
    case Some(i) =>
      RemoveFirst(docs, id, i);
      docs[..i] + docs[i + 1..]
  }

  /** Cutting out position `i`, the first document with that id. */
  lemma RemoveFirst<F>(docs: seq<Doc<F>>, id: Id, i: nat)
    requires i < |docs| && docs[i].id == id && forall k :: 0 <= k < i ==> docs[k].id != id
    ensures var r := docs[..i] + docs[i + 1..];
      && |r| == |docs| - 1
      && (forall d :: d in r ==> d in docs)
      && (forall d :: d in docs && d.id != id ==> d in r)
      && (UniqueIds(docs) ==> UniqueIds(r) && !HasId(r, id))
  {
    var r := docs[..i] + docs[i + 1..];
    assert forall k :: 0 <= k < i ==> r[k] == docs[k];
    assert forall k :: i <= k < |r| ==> r[k] == docs[k + 1];
    forall d | d in docs && d.id != id
      ensures d in r
    {
      var k :| 0 <= k < |docs| && docs[k] == d;
      if k < i { assert r[k] == d; } else { assert k > i; assert r[k - 1] == d; }
    }
    if UniqueIds(docs) {
      forall a, b | 0 <= a < b < |r|
        ensures r[a].id != r[b].id
      {
        var a' := if a < i then a else a + 1;
        var b' := if b < i then b else b + 1;
        assert r[a] == docs[a'] && r[b] == docs[b'] && a' < b';
      }
      forall k | 0 <= k < |r|
        ensures r[k].id != id
      {
        var k' := if k < i then k else k + 1;
        assert r[k] == docs[k'] && k' != i;
      }
    }
  }

  /** `updateOne({_id: id}, update)`: applies `f` to the first document with
      that id and leaves every other document where and as it was. */
  function UpdateOne<F>(docs: seq<Doc<F>>, id: Id, f: F -> F): (r: seq<Doc<F>>)
    ensures |r| == |docs|
    ensures forall k :: 0 <= k < |docs| ==> r[k].id == docs[k].id
    ensures forall k :: 0 <= k < |docs| && docs[k].id != id ==> r[k] == docs[k]
    ensures UniqueIds(docs) ==> forall k :: 0 <= k < |docs| && docs[k].id == id ==> r[k].fields == f(docs[k].fields)
  {
    match FindFirst(docs, ById<F>(id))
    case None => docs
    case Some(i) => docs[i := Doc(id, f(docs[i].fields))]
  }

  /** `.skip(skip).limit(limit)` on the natural order; a limit of 0 means no limit. */
  function Slice<F>(docs: seq<Doc<F>>, skip: nat, limit: nat): (r: seq<Doc<F>>)
    ensures limit > 0 ==> |r| <= limit
    ensures skip >= |docs| ==> r == []
    ensures forall k :: 0 <= k < |r| ==> skip + k < |docs| && r[k] == docs[skip + k]
    ensures skip < |docs| && (limit == 0 || skip + limit >= |docs|) ==> |r| == |docs| - skip
    ensures skip < |docs| && limit > 0 && skip + limit < |docs| ==> |r| == limit
  {
    if skip >= |docs| then []
    else if limit == 0 || skip + limit >= |docs| then docs[skip..]
    else docs[skip..skip + limit]
  }
}

=== FILE: courses_controller.dfy ===
/** `controllers/courses.controller.js`: list, get, add, update and delete
    courses. A course is the request body it was created from (the course
    schema is not part of this model), keyed by a store-assigned id. */
module CoursesController {
  import opened Wrappers
  import opened JsonValue
  import opened AppErrors
  import opened Collection
  import opened Pagination
  import opened ValidationSchema

  type CourseFields = map<string, Value>
  type Course = Doc<CourseFields>
  type Courses = seq<Course>

  /** The write result `updateOne` resolves to. */
  datatype UpdateResult = UpdateResult(matchedCount: nat, modifiedCount: nat)

  /** The `data` of a success envelope; `NoData` is `data: null`. */
  datatype CoursesData = CourseList(courses: Courses) | OneCourse(course: Course) | Updated(result: UpdateResult) | NoData

  const CourseNotFound := Create("NOT FOUND COURSE", 404, FAIL)

  /** `getAllCourses`: one page of courses in natural order. */
  function GetAllCourses(courses: Courses, q: PageQuery): (o: Outcome<CoursesData>)
    ensures o.Forward? <==> Skip(q) < 0
    ensures o.Forward? ==> o.failure == Thrown(NegativeSkip)
    ensures o.Respond? ==> o.code == 200 && o.data.CourseList?
    ensures o.Respond? ==> Limit(q) > 0 ==> |o.data.courses| <= Limit(q)
    ensures o.Respond? ==> forall c :: c in o.data.courses ==> c in courses
    ensures o.Respond? ==> Skip(q) >= 0 && o.data.courses == Slice(courses, Skip(q) as nat, Limit(q))
  {
    match FetchPage(courses, q)
    case None => Forward(Thrown(NegativeSkip))
    case Some(page) => Respond(200, CourseList(page))
  }

  /** Page `p` (from 1) of size `l` lists exactly the courses at positions
      `(p-1)*l` up to, not including, `p*l`; `limit=0` lists every course. */
  lemma CoursesPage(courses: Courses, l: nat, p: nat)
    requires l >= 1 && p >= 1
    ensures var o := GetAllCourses(courses, PageQuery(Some(l), Some(p)));
      && o.Respond? && o.code == 200
      && (forall k :: 0 <= k < |o.data.courses| ==> o.data.courses[k] == courses[(p - 1) * l + k])
      && |o.data.courses| == (if (p - 1) * l >= |courses| then 0
                              else if p * l >= |courses| then |courses| - (p - 1) * l
                              else l)
    ensures GetAllCourses(courses, PageQuery(Some(0), None)) == Respond(200, CourseList(courses))
  {
    PageWindow(courses, l, p);
    assert Slice(courses, 0, 0) == courses[0..] == courses;
  }

  /** `getCourse`: the stored course unchanged, or "NOT FOUND COURSE". */
  function GetCourse(courses: Courses, id: Id): (o: Outcome<CoursesData>)
    ensures o.Respond? <==> HasId(courses, id)
    ensures o.Respond? ==> o.code == 200 && o.data.OneCourse? && o.data.course in courses && o.data.course.id == id
    ensures o.Forward? ==> o.failure == Raised(CourseNotFound)
  {
    match FindById(courses, id)
    case None => Forward(Raised(CourseNotFound))
    case Some(c) => Respond(200, OneCourse(c))
  }

  /** `addCourse`: a non-empty error list is forwarded as a 400 carrying the
      list and nothing is saved; otherwise the body is saved under the fresh id. */
  function AddCourse(courses: Courses, errors: seq<FieldError>, body: CourseFields, newId: Id): (s: Step<CoursesData, Courses>)
    ensures s.outcome.Forward? ==> s.store == courses
    ensures |errors| > 0 ==> s.outcome == Forward(Raised(AppError(Errors(errors), 400, Some(FAIL))))
    ensures s.outcome.Respond? <==> |errors| == 0 && !HasId(courses, newId)
    ensures s.outcome.Respond? ==> s.outcome == Respond(201, OneCourse(Doc(newId, body))) && s.store == courses + [Doc(newId, body)]
  {
    if |errors| > 0 then Step(Forward(Raised(AppError(Errors(errors), 400, Some(FAIL)))), courses)
    else if HasId(courses, newId) then Step(Forward(Thrown(DuplicateKey)), courses)
    else Step(Respond(201, OneCourse(Doc(newId, body))), courses + [Doc(newId, body)])
  }

  /** `POST /` on the courses router: the validation schema, then `addCourse`. */
  function PostCourse(courses: Courses, body: CourseFields, newId: Id): (s: Step<CoursesData, Courses>)
    ensures s.outcome.Respond? <==>
      |FieldText(body, "title")| >= TitleMinLength && |FieldText(body, "price")| > 0 && !HasId(courses, newId)
    ensures s.outcome.Respond? ==> s.store == courses + [Doc(newId, body)]
    ensures Validate(body) != [] ==>
      s == Step(Forward(Raised(AppError(Errors(Validate(body)), 400, Some(FAIL)))), courses)
  {
    ValidIff(body);
    AddCourse(courses, Validate(body), body, newId)
  }

  /** `$set: {...body}`: every body field overwrites, every other field stays. */
  function Merge(fields: CourseFields, body: CourseFields): (r: CourseFields)
    ensures r.Keys == fields.Keys + body.Keys
    ensures forall k :: k in body ==> r[k] == body[k]
    ensures forall k :: k in fields && k !in body ==> r[k] == fields[k]
  {
    fields + body
  }

  /** `updateCourse`: merge the body into the course with that id; answers 200
      with the write result even when no course matched. */
  function UpdateCourse(courses: Courses, id: Id, body: CourseFields): (s: Step<CoursesData, Courses>)
    ensures s.outcome.Respond? && s.outcome.code == 200 && s.outcome.data.Updated?
    ensures s.outcome.data.result.matchedCount == (if HasId(courses, id) then 1 else 0)
    ensures !HasId(courses, id) ==> s.store == courses
  {
    var merge := (f: CourseFields) => Merge(f, body);
    match FindById(courses, id)
    case None => Step(Respond(200, Updated(UpdateResult(0, 0))), courses)
    case Some(c) =>
      var changed := if Merge(c.fields, body) != c.fields then 1 else 0;
      Step(Respond(200, Updated(UpdateResult(1, changed))), UpdateOne(courses, id, merge))
  }

  /** After an update, reading the course back gives its old fields with
      exactly the body's fields overwritten; every other course is unchanged. */
  lemma UpdateThenGet(courses: Courses, id: Id, body: CourseFields)
    requires UniqueIds(courses)
    requires HasId(courses, id)
    ensures var after := UpdateCourse(courses, id, body).store;
      && UniqueIds(after)
      && forall k :: 0 <= k < |courses| && courses[k].id == id ==>
           GetCourse(after, id) == Respond(200, OneCourse(Doc(id, Merge(courses[k].fields, body))))
    ensures var after := UpdateCourse(courses, id, body).store;
      forall k :: 0 <= k < |courses| && courses[k].id != id ==> after[k] == courses[k]
  {
    var merge := (f: CourseFields) => Merge(f, body);
    var after := UpdateOne(courses, id, merge);
    var k :| 0 <= k < |courses| && courses[k].id == id;
    assert after[k] == Doc(id, Merge(courses[k].fields, body));
    assert forall j :: 0 <= j < |after| && j != k ==> after[j].id != id;
    var found := FindById(after, id);
    assert found.Some?;
    var j :| 0 <= j < |after| && after[j] == found.value;
    assert j == k;
  }

  /** Applying the same update twice changes nothing the second time. */
  lemma UpdateIdempotent(courses: Courses, id: Id, body: CourseFields)
    requires UniqueIds(courses)
    ensures var once := UpdateCourse(courses, id, body).store;
      var twice := UpdateCourse(once, id, body);
      twice.store == once && twice.outcome.data.result.modifiedCount == 0
  {
    var once := UpdateCourse(courses, id, body).store;
    if HasId(courses, id) {
      var merge := (f: CourseFields) => Merge(f, body);
      assert forall k :: 0 <= k < |once| && once[k].id == id ==> Merge(once[k].fields, body) == once[k].fields;
      var twice := UpdateOne(once, id, merge);
      assert forall k :: 0 <= k < |once| ==> twice[k] == once[k];
    }
  }

  /** `deleteCourse`: removes the course with that id and answers 200 with
      `data: null` whether or not it existed. */
  function DeleteCourse(courses: Courses, id: Id): (s: Step<CoursesData, Courses>)
    ensures s.outcome == Respond(200, NoData)
    ensures UniqueIds(courses) ==> UniqueIds(s.store) && !HasId(s.store, id)
    ensures forall c :: c in courses && c.id != id ==> c in s.store
    ensures forall c :: c in s.store ==> c in courses
  {
    Step(Respond(200, NoData), DeleteOne(courses, id))
  }

  /** After a delete the course can no longer be read. */
  lemma DeleteThenGet(courses: Courses, id: Id)
    requires UniqueIds(courses)
    ensures GetCourse(DeleteCourse(courses, id).store, id) == Forward(Raised(CourseNotFound))
  {
  }

  /** A course that was added can be read back as it was given. */
  lemma AddThenGet(courses: Courses, body: CourseFields, newId: Id)
    requires UniqueIds(courses)
    requires Validate(body) == []
    requires !HasId(courses, newId)
    ensures var s := PostCourse(courses, body, newId);
      && UniqueIds(s.store)
      && GetCourse(s.store, newId) == Respond(200, OneCourse(Doc(newId, body)))
  {
    var after := courses + [Doc(newId, body)];
    assert after[|courses|].id == newId;
    var found := FindById(after, newId);
    assert found.Some?;
  }

  /** A body with a title shorter than two characters is never saved. */
  lemma ShortTitleNeverSaved(courses: Courses, body: CourseFields, newId: Id)
    requires |FieldText(body, "title")| < TitleMinLength
    ensures PostCourse(courses, body, newId).store == courses
    ensures PostCourse(courses, body, newId).outcome.Forward?
    ensures PostCourse(courses, body, newId).outcome.failure.error.statusCode == 400
  {
    ValidIff(body);
  }
}

=== FILE: json_value.dfy ===
/** Values of a parsed JSON request body, as far as a validator can tell
    them apart. */
module JsonValue {

  /** A JSON number, held as the text JavaScript's `String(n)` gives for it
      (`"42"`, `"19.99"`, `"-0.5"`, `"1e+21"`); that text is never empty. */
  type NumberText = s: string | |s| > 0 witness "0"

  /** `Obj` stands for a nested plain object; arrays are not modelled. */
  datatype Value = Str(s: string) | Num(text: NumberText) | Bool(b: bool) | Null | Obj

  const ObjectText := "[object Object]"

  /** The string a validator sees for a value: express-validator turns
      numbers and booleans into their text, a plain object into
      `"[object Object]"` and `null` into `""`. */
  function ToText(v: Value): (r: string)
    ensures |r| == 0 <==> v == Str("") || v == Null
    ensures v.Num? ==> r == v.text
  {
    match v
    case Str(s) => s
    case Num(t) => t
    case Bool(b) => if b then "true" else "false"
    case Null => ""
    case Obj => ObjectText
  }
}

=== FILE: pagination.dfy ===
/** Page/limit query handling shared by the user and course listings:
    `limit = query.limit || 10`, `page = query.page || 1`,
    `skip = (page - 1) * limit`. Query strings are truthy whenever present and
    non-empty (even `"0"`), so a present value is always used. */
module Pagination {
  import opened Wrappers
  import opened Collection

  const DefaultLimit: nat := 10
  const DefaultPage: nat := 1

  /** `None` is an absent or empty query parameter. */
  datatype PageQuery = PageQuery(limit: Option<nat>, page: Option<nat>)

  /** The page size: 10 when absent; zero only when the query asks for 0. */
  function Limit(q: PageQuery): (r: nat)
    ensures q.limit.None? ==> r == DefaultLimit
    ensures q.limit.Some? ==> r == q.limit.value
    ensures r == 0 <==> q.limit == Some(0)
  {
    q.limit.GetOr(DefaultLimit)
  }

  /** The page number, counted from 1: 1 when absent. */
  function PageNumber(q: PageQuery): (r: nat)
    ensures q.page.None? ==> r == DefaultPage
    ensures q.page.Some? ==> r == q.page.value
  {
    q.page.GetOr(DefaultPage)
  }

  /** The documents skipped before the page: whole earlier pages. It is
      negative exactly on page 0 with a non-zero limit, and zero on page 1. */
  function Skip(q: PageQuery): (r: int)
    ensures r < 0 <==> PageNumber(q) == 0 && Limit(q) > 0
    ensures PageNumber(q) == 0 ==> r == -(Limit(q) as int)
    ensures PageNumber(q) == 1 ==> r == 0
    ensures PageNumber(q) >= 1 ==> r + Limit(q) == PageNumber(q) * Limit(q)
  {
    (PageNumber(q) - 1) * Limit(q)
  }

  /** `find().limit(limit).skip(skip)`: `None` when the store refuses a negative skip. */
  function FetchPage<F>(docs: seq<Doc<F>>, q: PageQuery): (r: Option<seq<Doc<F>>>)
    ensures r.None? <==> Skip(q) < 0
    ensures r.Some? ==> Limit(q) > 0 ==> |r.value| <= Limit(q)
    ensures r.Some? ==> forall d :: d in r.value ==> d in docs
  {
    if Skip(q) < 0 then None else Some(Slice(docs, Skip(q), Limit(q)))
  }

  /** With no query parameters the listing is the first ten documents. */
  lemma DefaultsGiveFirstTen<F>(docs: seq<Doc<F>>)
    ensures Limit(PageQuery(None, None)) == 10 && Skip(PageQuery(None, None)) == 0
    ensures FetchPage(docs, PageQuery(None, None)) == Some(if |docs| <= 10 then docs else docs[..10])
  {
  }

  /** `page=0&limit=0` computes a skip of `-0`: nothing is skipped and no
      limit applies, so every document is listed. */
  lemma PageZeroNoLimit<F>(docs: seq<Doc<F>>)
    ensures Skip(PageQuery(Some(0), Some(0))) == 0
    ensures FetchPage(docs, PageQuery(Some(0), Some(0))) == Some(docs)
  {
    assert Slice(docs, 0, 0) == docs[0..] == docs;
  }

  /** Page `p` (from 1) of size `l` holds exactly the documents at positions
      `(p-1)*l` up to, not including, `p*l`. */
  lemma PageWindow<F>(docs: seq<Doc<F>>, l: nat, p: nat)
    requires l >= 1 && p >= 1
    ensures var r := FetchPage(docs, PageQuery(Some(l), Some(p)));
      && r.Some?
      && (forall k :: 0 <= k < |r.value| ==> r.value[k] == docs[(p - 1) * l + k])
      && |r.value| == (if (p - 1) * l >= |docs| then 0
                       else if p * l >= |docs| then |docs| - (p - 1) * l
                       else l)
  {
    var q := PageQuery(Some(l), Some(p));
    assert Skip(q) == (p - 1) * l;
    assert (p - 1) * l + l == p * l;
  }

  /** Document `i` is listed on page `i / l + 1`, at position `i % l`. */
  lemma DocOnItsPage<F>(docs: seq<Doc<F>>, l: nat, i: nat)
    requires l >= 1 && i < |docs|
    ensures var r := FetchPage(docs, PageQuery(Some(l), Some(i / l + 1)));
      r.Some? && i % l < |r.value| && r.value[i % l] == docs[i]
  {
    var p := i / l + 1;
    PageWindow(docs, l, p);
    assert i == (p - 1) * l + i % l;
    assert p * l == (p - 1) * l + l;
  }

  /** No document is listed twice: every document on page `p` has `p` as its page. */
  lemma PagesAreDisjoint<F>(docs: seq<Doc<F>>, l: nat, p: nat)
    requires l >= 1 && p >= 1
    ensures var r := FetchPage(docs, PageQuery(Some(l), Some(p)));
      r.Some? &&
      forall k :: 0 <= k < |r.value| ==> r.value[k] == docs[(p - 1) * l + k] && ((p - 1) * l + k) / l + 1 == p
  {
    PageWindow(docs, l, p);
    var r := FetchPage(docs, PageQuery(Some(l), Some(p)));
    forall k | 0 <= k < |r.value|
      ensures r.value[k] == docs[(p - 1) * l + k] && ((p - 1) * l + k) / l + 1 == p
    {
      assert k < l;
      DivisionUnique((p - 1) * l + k, l, p - 1, k);
    }
  }

  /** Quotient and remainder are unique. */
  lemma DivisionUnique(i: nat, l: nat, q: nat, k: nat)
    requires l >= 1 && k < l && i == q * l + k
    ensures q == i / l && k == i % l
  {
    var q0 := i / l;
    var k0 := i % l;
    assert i == q0 * l + k0 && 0 <= k0 < l;
    if q < q0 {
      MulAtLeast(q0 - q, l);
      assert false;
    } else if q > q0 {
      MulAtLeast(q - q0, l);
      assert false;
    }
  }

  lemma {:induction false} MulAtLeast(a: nat, l: nat)
    requires a >= 1
    ensures a * l >= l
  {
    if a > 1 {
      MulAtLeast(a - 1, l);
      assert a * l == (a - 1) * l + l;
    }
  }
}

=== FILE: text.dfy ===
/** The string operations the request layer relies on: JavaScript truthiness,
    `String.prototype.split` with a one-character separator, and the decimal
    rendering of a number inside a template literal. */
module Text {
  import opened Wrappers

  /** JavaScript truthiness of an optional string: `undefined` and `""` are falsy. */
  predicate Truthy(s: Option<string>) {
    s.Some? && s.value != ""
  }

  /** `a || b` on optional strings: the first operand when it is truthy,
      otherwise the second. */
  function Or(a: Option<string>, b: Option<string>): (r: Option<string>)
    ensures Truthy(r) <==> Truthy(a) || Truthy(b)
    ensures Truthy(a) ==> r == a
    ensures !Truthy(a) ==> r == b
  {
    if Truthy(a) then a else b
  }

  /** Position of the first occurrence of `c` in `s`. */
  function IndexOf(s: string, c: char): (r: Option<nat>)
    ensures r.None? <==> c !in s
    ensures r.Some? ==> r.value < |s| && s[r.value] == c && c !in s[..r.value]
  {
    if |s| == 0 then None
    else if s[0] == c then Some(0)
    else
      match IndexOf(s[1..], c)
      case None => None
      case Some(i) =>
        assert s[1..][..i] == s[1..i + 1];
        assert s[..i + 1] == [s[0]] + s[1..i + 1];
        Some(i + 1)
  }

  /** The first occurrence of `c` in `w + [c] + rest` is right after `w`
      when `w` does not contain `c`. */
  lemma {:induction false} IndexOfAfter(w: string, c: char, rest: string)
    requires c !in w
    ensures IndexOf(w + [c] + rest, c) == Some(|w|)
    decreases |w|
  {
    var s := w + [c] + rest;
    if |w| > 0 {
      assert s[0] == w[0];
      assert s[1..] == w[1..] + [c] + rest;
      IndexOfAfter(w[1..], c, rest);
    }
  }

  /** `s.split(sep)` for a one-character separator: the maximal pieces of `s`
      between occurrences of `sep`; the empty string splits into `[""]`. */
  function Split(s: string, sep: char): (parts: seq<string>)
    ensures |parts| >= 1
    ensures forall i :: 0 <= i < |parts| ==> sep !in parts[i]
    decreases |s|
  {
    match IndexOf(s, sep)
    case None => [s]
    case Some(i) => [s[..i]] + Split(s[i + 1..], sep)
  }

  /** `parts.join(sep)`, the inverse of `Split`. */
  function Join(parts: seq<string>, sep: char): string
    decreases |parts|
  {
    if |parts| == 0 then ""
    else if |parts| == 1 then parts[0]
    else parts[0] + [sep] + Join(parts[1..], sep)
  }

  /** `arr[k]` on an array of strings: `undefined` past the end. */
  function Segment(parts: seq<string>, k: nat): (r: Option<string>)
    ensures r.Some? <==> k < |parts|
    ensures r.Some? ==> r.value == parts[k]
  {
    if k < |parts| then Some(parts[k]) else None
  }

  /** Joining the pieces of a split gives back the original string. */
  lemma {:induction false} JoinSplit(s: string, sep: char)
    ensures Join(Split(s, sep), sep) == s
    decreases |s|
  {
    match IndexOf(s, sep)
    case None =>
    case Some(i) =>
      var rest := s[i + 1..];
      var parts := Split(rest, sep);
      JoinSplit(rest, sep);
      assert Split(s, sep) == [s[..i]] + parts;
      assert ([s[..i]] + parts)[1..] == parts;
      assert Join([s[..i]] + parts, sep) == s[..i] + [sep] + Join(parts, sep);
      assert s == s[..i] + [sep] + rest;
  }

  /** Splitting a join of separator-free pieces gives back the pieces. */
  lemma {:induction false} SplitJoin(parts: seq<string>, sep: char)
    requires |parts| >= 1
    requires forall i :: 0 <= i < |parts| ==> sep !in parts[i]
    ensures Split(Join(parts, sep), sep) == parts
    decreases |parts|
  {
    if |parts| == 1 {
      assert sep !in parts[0];
    } else {
      var w := parts[0];
      var rest := Join(parts[1..], sep);
      assert Join(parts, sep) == w + [sep] + rest;
      assert sep !in w;
      SplitCons(w, sep, rest);
      assert forall i :: 0 <= i < |parts[1..]| ==> sep !in parts[1..][i] by {
        forall i | 0 <= i < |parts[1..]|
          ensures sep !in parts[1..][i]
        {
          assert parts[1..][i] == parts[i + 1];
        }
      }
      SplitJoin(parts[1..], sep);
      assert parts == [w] + parts[1..];
    }
  }

  /** A separator-free first word splits off as the first piece. */
  lemma SplitCons(w: string, sep: char, rest: string)
    requires sep !in w
    ensures Split(w + [sep] + rest, sep) == [w] + Split(rest, sep)
  {
    var s := w + [sep] + rest;
    IndexOfAfter(w, sep, rest);
    assert s[..|w|] == w;
    assert s[|w| + 1..] == rest;
  }

  /** Splitting `a + [sep] + b` with separator-free `a` and `b` yields exactly `[a, b]`. */
  lemma SplitPair(a: string, sep: char, b: string)
    requires sep !in a && sep !in b
    ensures Split(a + [sep] + b, sep) == [a, b]
  {
    assert Join([a, b], sep) == a + [sep] + b;
    SplitJoin([a, b], sep);
  }

  /** The first piece of a split is everything before the first separator. */
  lemma SplitHead(s: string, sep: char)
    ensures IndexOf(s, sep).None? ==> Split(s, sep)[0] == s
    ensures IndexOf(s, sep).Some? ==> Split(s, sep)[0] == s[..IndexOf(s, sep).value]
  {
  }

  predicate IsPrefix(p: string, s: string) {
    |p| <= |s| && s[..|p|] == p
  }

  /** `s.split(sep)[0]`: the longest prefix of `s` free of `sep`. */
  function FirstPiece(s: string, sep: char): (r: string)
    ensures sep !in r && IsPrefix(r, s)
    ensures |r| == |s| || s[|r|] == sep
  {
    SplitHead(s, sep);
    Split(s, sep)[0]
  }

  /** `s.split(sep)[1]`: present exactly when `s` contains `sep`, and then the
      first piece of what follows the first separator. */
  function SecondPiece(s: string, sep: char): (r: Option<string>)
    ensures r.Some? <==> sep in s
    ensures r.Some? ==> IndexOf(s, sep).Some? && r.value == FirstPiece(s[IndexOf(s, sep).value + 1..], sep)
  {
    Segment(Split(s, sep), 1)
  }

  predicate IsDigit(c: char) {
    '0' <= c <= '9'
  }

  predicate AllDigits(s: string) {
    forall i :: 0 <= i < |s| ==> IsDigit(s[i])
  }

  function DigitChar(d: nat): (c: char)
    requires d < 10
    ensures IsDigit(c)
  {
    (('0' as int) + d) as char
  }

  function DigitValue(c: char): (d: nat)
    requires IsDigit(c)
    ensures d < 10
  {
    (c as int) - ('0' as int)
  }

  /** Decimal rendering of a natural number, as `${n}` produces it. */
  function NatToString(n: nat): (s: string)
    ensures |s| >= 1 && AllDigits(s)
    ensures s[0] == '0' <==> n == 0
    ensures |s| == 1 || s[0] != '0'
  {
    if n < 10 then [DigitChar(n)]
    else NatToString(n / 10) + [DigitChar(n % 10)]
  }

  /** Reads a string of decimal digits back into a number. */
  function ParseDecimal(s: string): nat
    requires AllDigits(s)
  {
    if |s| == 0 then 0
    else ParseDecimal(s[..|s| - 1]) * 10 + DigitValue(s[|s| - 1])
  }

  /** Parsing the decimal rendering of `n` gives `n` back. */
  lemma {:induction false} ParseNatToString(n: nat)
    ensures ParseDecimal(NatToString(n)) == n
  {
    if n >= 10 {
      var s := NatToString(n);
      var prefix := NatToString(n / 10);
      assert s[..|s| - 1] == prefix;
      assert DigitValue(s[|s| - 1]) == n % 10;
      ParseNatToString(n / 10);
    }
  }
}

=== FILE: upload.dfy ===
/** The avatar upload of `routes/users.route.js`: multer's `single('avatar')`
    with the image-only `fileFilter` and the disk storage that names files
    `user-<timestamp>.<subtype>` inside `uploads`. The timestamp is
    `Date.now()`, passed in. */
module AvatarUpload {
  import opened Wrappers
  import opened Text
  import opened AppErrors

  const UploadDir := "uploads"
  const ImageType := "image"
  const FieldName := "avatar"
  const NamePrefix := "user-"

  /** Created with two arguments, so it carries no status text. */
  const NotAnImage := AppError(Text("the file must be an image"), 400, None)

  /** A file part of the multipart body as multer first sees it. */
  datatype FilePart = FilePart(fieldname: string, originalname: string, mimetype: string)

  /** `req.file` after storage. */
  datatype StoredFile = StoredFile(fieldname: string, originalname: string, mimetype: string, destination: string, filename: string)

  /** The two arguments the filter passes to its callback: an error and whether to keep the file. */
  datatype Verdict = Verdict(error: Option<AppError>, accept: bool)

  /** `mimetype.split('/')[0]`: everything before the first `/`, or the
      whole mimetype when it has none. */
  function MediaType(mimetype: string): (r: string)
    ensures '/' !in r && IsPrefix(r, mimetype)
    ensures |r| == |mimetype| || mimetype[|r|] == '/'
  {
    FirstPiece(mimetype, '/')
  }

  /** `mimetype.split('/')[1]` as a template literal renders it: the text
      between the first `/` and the next one (or the end), and `"undefined"`
      when the mimetype has no `/`. */
  function Subtype(mimetype: string): (r: string)
    ensures '/' !in mimetype ==> r == "undefined"
    ensures '/' in mimetype ==> IndexOf(mimetype, '/').Some?
    ensures '/' in mimetype ==> var rest := mimetype[IndexOf(mimetype, '/').value + 1..];
      '/' !in r && IsPrefix(r, rest) && (|r| == |rest| || rest[|r|] == '/')
  {
    match SecondPiece(mimetype, '/')
    case Some(s) => s
    case None => "undefined"
  }

  /** `fileFilter`. */
  function FileFilter(f: FilePart): (v: Verdict)
    ensures v.accept <==> v.error.None?
    ensures !v.accept ==> v.error == Some(NotAnImage)
  {
    if MediaType(f.mimetype) == ImageType then Verdict(None, true)
    else Verdict(Some(NotAnImage), false)
  }

  /** A mimetype beginning `image/` has media type `image`. */
  lemma ImagePrefixMediaType(m: string)
    requires IsPrefix("image/", m)
    ensures MediaType(m) == ImageType
  {
    assert m == "image" + ['/'] + m[6..];
    IndexOfAfter("image", '/', m[6..]);
    SplitHead(m, '/');
    assert m[..5] == "image";
  }

  /** A media type `image` cut off by a slash means the mimetype begins `image/`. */
  lemma ImageBeforeSlash(m: string, i: nat)
    requires IndexOf(m, '/') == Some(i) && m[..i] == ImageType
    ensures IsPrefix("image/", m)
  {
    assert i == 5;
    assert m[..6] == m[..5] + [m[5]];
  }

  /** A file is accepted exactly when its mimetype is `image` or starts with `image/`. */
  lemma AcceptsExactlyImages(f: FilePart)
    ensures FileFilter(f).accept <==> f.mimetype == "image" || IsPrefix("image/", f.mimetype)
  {
    var m := f.mimetype;
    SplitHead(m, '/');
    if IsPrefix("image/", m) {
      ImagePrefixMediaType(m);
    }
    if m == "image" {
      assert '/' !in m;
    }
    match IndexOf(m, '/')
    case Some(i) =>
      if m[..i] == ImageType {
        ImageBeforeSlash(m, i);
      }
    case None =>
  }

  /** `destination`: the fixed upload directory, whatever the file. */
  function Destination(f: FilePart): (r: string)
    ensures r == UploadDir
  {
    UploadDir
  }

  /** `filename`: the name starts with `user-`, ends with a dot and the
      mimetype's subtype, and what lies between is the decimal timestamp. */
  function Filename(f: FilePart, now: nat): (r: string)
    ensures IsPrefix(NamePrefix, r)
    ensures |r| >= |NamePrefix| + 2 + |Subtype(f.mimetype)|
    ensures r[|r| - |Subtype(f.mimetype)| - 1..] == "." + Subtype(f.mimetype)
    ensures var digits := r[|NamePrefix|..|r| - |Subtype(f.mimetype)| - 1];
      AllDigits(digits) && ParseDecimal(digits) == now && (|digits| == 1 || digits[0] != '0')
  {
    var digits := NatToString(now);
    NameParts(digits, Subtype(f.mimetype));
    ParseNatToString(now);
    NamePrefix + digits + "." + Subtype(f.mimetype)
  }

  /** The three parts of `user-<digits>.<ext>` can be read back off the name. */
  lemma NameParts(digits: string, ext: string)
    ensures var r := NamePrefix + digits + "." + ext;
      && IsPrefix(NamePrefix, r)
      && |r| == |NamePrefix| + |digits| + 1 + |ext|
      && r[|r| - |ext| - 1..] == "." + ext
      && r[|NamePrefix|..|r| - |ext| - 1] == digits
  {
    var r := NamePrefix + digits + "." + ext;
    assert r[..|NamePrefix|] == NamePrefix;
    assert r[|r| - |ext| - 1..] == "." + ext;
    assert r[|NamePrefix|..|r| - |ext| - 1] == digits;
  }

  /** For a mimetype `top/sub` the stored name ends in `.sub`. */
  lemma SubtypeOfPair(top: string, sub: string)
    requires '/' !in top && '/' !in sub
    ensures Subtype(top + "/" + sub) == sub
  {
    assert top + "/" + sub == top + ['/'] + sub;
    SplitPair(top, '/', sub);
  }

  /** An `image/png` upload at time `now` is accepted and stored as
      `user-<now>.png` in `uploads`. */
  lemma PngName(f: FilePart, now: nat)
    requires f.mimetype == "image/png"
    ensures FileFilter(f).accept
    ensures Filename(f, now) == "user-" + NatToString(now) + ".png"
    ensures Destination(f) == "uploads"
  {
    PngParts(f.mimetype);
    ImageNamed(f, now, "png");
    assert "." + "png" == ".png";
  }

  /** An accepted image with subtype `ext` is stored as `user-<now>.<ext>`. */
  lemma ImageNamed(f: FilePart, now: nat, ext: string)
    requires IsPrefix("image/", f.mimetype) && Subtype(f.mimetype) == ext
    ensures FileFilter(f).accept
    ensures Filename(f, now) == "user-" + NatToString(now) + "." + ext
  {
    ImagePrefixMediaType(f.mimetype);
    FilenameWithSubtype(f, now, ext);
  }

  lemma PngParts(m: string)
    requires m == "image/png"
    ensures Subtype(m) == "png" && IsPrefix("image/", m)
  {
    assert m == "image" + "/" + "png";
    SubtypeOfPair("image", "png");
    assert m[..6] == "image/";
  }

  lemma FilenameWithSubtype(f: FilePart, now: nat, ext: string)
    requires Subtype(f.mimetype) == ext
    ensures Filename(f, now) == NamePrefix + NatToString(now) + "." + ext
  {
  }

  /** `application/pdf` is refused with the image error. */
  lemma PdfRefused(fieldname: string, originalname: string)
    ensures FileFilter(FilePart(fieldname, originalname, "application/pdf")) == Verdict(Some(NotAnImage), false)
  {
    var f := FilePart(fieldname, originalname, "application/pdf");
    AcceptsExactlyImages(f);
    assert "application/pdf"[0] != "image/"[0];
  }

  /** Recovers the timestamp from a stored name: the digits between the prefix
      and the first dot. */
  function TimestampOf(name: string): Option<nat> {
    if IsPrefix(NamePrefix, name) then
      var digits := Split(name[|NamePrefix|..], '.')[0];
      if |digits| > 0 && AllDigits(digits) then Some(ParseDecimal(digits)) else None
    else None
  }

  /** The stored name gives its timestamp back, whatever the mimetype. */
  lemma TimestampOfFilename(f: FilePart, now: nat)
    ensures TimestampOf(Filename(f, now)) == Some(now)
  {
    FilenameWithSubtype(f, now, Subtype(f.mimetype));
    TimestampOfName(NatToString(now), Subtype(f.mimetype));
    ParseNatToString(now);
  }

  /** A name built from the prefix, a run of digits, a dot and any extension
      gives back the number those digits spell. */
  lemma TimestampOfName(digits: string, ext: string)
    requires |digits| > 0 && AllDigits(digits)
    ensures TimestampOf(NamePrefix + digits + "." + ext) == Some(ParseDecimal(digits))
  {
    var rest := digits + ['.'] + ext;
    var name := NamePrefix + rest;
    assert NamePrefix + digits + "." + ext == name;
    assert name[..|NamePrefix|] == NamePrefix;
    assert name[|NamePrefix|..] == rest;
    DigitsBeforeDot(digits, ext);
  }

  /** The piece before the first dot of `digits.ext` is `digits`. */
  lemma DigitsBeforeDot(digits: string, ext: string)
    requires AllDigits(digits)
    ensures Split(digits + ['.'] + ext, '.')[0] == digits
  {
    var rest := digits + ['.'] + ext;
    forall i | 0 <= i < |digits|
      ensures digits[i] != '.'
    {
      assert IsDigit(digits[i]);
    }
    IndexOfAfter(digits, '.', ext);
    SplitHead(rest, '.');
    assert rest[..|digits|] == digits;
  }

  /** Uploads at different milliseconds never share a stored name. */
  lemma DistinctTimesDistinctNames(f1: FilePart, t1: nat, f2: FilePart, t2: nat)
    requires t1 != t2
    ensures Filename(f1, t1) != Filename(f2, t2)
  {
    TimestampOfFilename(f1, t1);
    TimestampOfFilename(f2, t2);
  }

  /** The client's file name plays no part: within one millisecond, two files
      with the same subtype get the same name. */
  lemma OriginalNameUnused(f: FilePart, g: FilePart, now: nat)
    requires Subtype(f.mimetype) == Subtype(g.mimetype)
    ensures Filename(f, now) == Filename(g, now)
  {
  }

  /** multer's `single('avatar')`: no file part, or a part whose client file
      name is empty, passes through with no file; a part under another field
      name is an unexpected-field error; otherwise the filter decides, and an
      accepted file is stored. */
  function Single(part: Option<FilePart>, now: nat): (r: Flow<Option<StoredFile>>)
    ensures part.None? ==> r == Proceed(None)
    ensures part.Some? && part.value.originalname == "" ==> r == Proceed(None)
    ensures part.Some? && part.value.originalname != "" && part.value.fieldname != FieldName ==>
      r == Halt(Thrown(UnexpectedField(part.value.fieldname)))
    ensures r.Halt? ==> part.Some? && part.value.originalname != "" && (r.failure == Raised(NotAnImage) || r.failure == Thrown(UnexpectedField(part.value.fieldname)))
    ensures r.Proceed? && r.value.Some? ==>
      && part.Some?
      && FileFilter(part.value).accept
      && r.value.value.destination == UploadDir
      && r.value.value.filename == Filename(part.value, now)
      && r.value.value.mimetype == part.value.mimetype
  {
    match part
    case None => Proceed(None)
    case Some(f) =>
      if f.originalname == "" then Proceed(None)
      else if f.fieldname != FieldName then Halt(Thrown(UnexpectedField(f.fieldname)))
      else
        var v := FileFilter(f);
        if v.error.Some? then Halt(Raised(v.error.value))
        else if !v.accept then Proceed(None)
        else Proceed(Some(StoredFile(f.fieldname, f.originalname, f.mimetype, Destination(f), Filename(f, now))))
  }

  /** A named part under `avatar` is stored exactly when it is an image;
      otherwise the request stops with the image error. A part with an empty
      file name is dropped before the filter sees it. */
  lemma SingleAvatarIff(f: FilePart, now: nat)
    requires f.fieldname == FieldName
    ensures f.originalname != "" ==>
      (Single(Some(f), now).Proceed? <==> f.mimetype == "image" || IsPrefix("image/", f.mimetype))
    ensures f.originalname != "" && Single(Some(f), now).Proceed? ==> Single(Some(f), now).value.Some?
    ensures Single(Some(f), now).Halt? ==> Single(Some(f), now).failure == Raised(NotAnImage)
    ensures f.originalname == "" ==> Single(Some(f), now) == Proceed(None)
  {
    AcceptsExactlyImages(f);
  }
}

=== FILE: user_model.dfy ===
/** The user document of `models/user.model.js`: field defaults, the role
    enumeration, the one field the schema really requires, email uniqueness,
    and the token claims built from a user. */
module UserModel {
  import opened Wrappers
  import opened Collection

  /** A role value as stored: one of the three enumerated roles, or
      `Unlisted(name)` for any other string a client sent, `name` being none
      of "USER", "ADMIN" and "MANAGER" (schema validation then refuses it). */
  datatype RoleValue = USER | ADMIN | MANAGER | Unlisted(name: string)

  predicate Listed(r: RoleValue) {
    !r.Unlisted?
  }

  const DefaultRole: RoleValue := USER
  const DefaultAvatar := "uploads/avatar.jpg"

  /** A user document. `firstName`, `lastName`, `email`, `password` and `token`
      may be missing; `role` and `avatar` always have a value because of their
      defaults. */
  datatype User = User(
    firstName: Option<string>,
    lastName: Option<string>,
    email: Option<string>,
    password: Option<string>,
    token: Option<string>,
    role: RoleValue,
    avatar: string)

  /** The fields passed to `new User({...})`. */
  datatype UserFields = UserFields(
    firstName: Option<string>,
    lastName: Option<string>,
    email: Option<string>,
    password: Option<string>,
    role: Option<RoleValue>,
    avatar: Option<string>)

  /** `new User(fields)`: defaults are applied to unset fields at construction. */
  function Construct(f: UserFields): (u: User)
    ensures f.role.None? ==> u.role == DefaultRole
    ensures f.role.Some? ==> u.role == f.role.value
    ensures f.avatar.None? ==> u.avatar == DefaultAvatar
    ensures f.avatar.Some? ==> u.avatar == f.avatar.value
    ensures u.token.None?
    ensures u.firstName == f.firstName && u.lastName == f.lastName
    ensures u.email == f.email && u.password == f.password
  {
    User(f.firstName, f.lastName, f.email, f.password, None, f.role.GetOr(DefaultRole), f.avatar.GetOr(DefaultAvatar))
  }

  /** Mongoose's `required` on a string refuses `undefined` and `""`. Only
      `firstName` says `required`; the other fields say `require`, which the
      schema ignores. */
  predicate RequiredPresent(u: User) {
    u.firstName.Some? && u.firstName.value != ""
  }

  /** Schema validation run by `save()`: the required field, the role
      enumeration, and the email validator on a present email. */
  predicate Valid(u: User, isEmail: string -> bool)
    ensures Valid(u, isEmail) ==> u.role in {USER, ADMIN, MANAGER}
    ensures Valid(u, isEmail) ==> u.firstName.Some? && |u.firstName.value| > 0
    ensures u.email.Some? && !isEmail(u.email.value) ==> !Valid(u, isEmail)
  {
    && RequiredPresent(u)
    && Listed(u.role)
    && (u.email.Some? ==> isEmail(u.email.value))
  }

  /** Only `firstName` is required: a user given nothing but a non-empty first
      name is valid, and one without a usable first name never is. */
  lemma OnlyFirstNameRequired(name: Option<string>, isEmail: string -> bool)
    ensures Valid(Construct(UserFields(name, None, None, None, None, None)), isEmail)
        <==> name.Some? && name.value != ""
  {
  }

  /** With no role given, the constructed user passes the role enumeration. */
  lemma DefaultRoleIsListed(f: UserFields)
    requires f.role.None? || Listed(f.role.value)
    ensures Listed(Construct(f).role)
  {
  }

  /** The unique index on `email` (a missing email counts as one value). */
  predicate EmailsUnique(users: seq<Doc<User>>) {
    forall i, j :: 0 <= i < j < |users| ==> users[i].fields.email != users[j].fields.email
  }

  /** What the users collection keeps true: unique ids, unique emails, and
      every stored user passed validation (so every role is one of the three). */
  predicate StoreInvariant(users: seq<Doc<User>>, isEmail: string -> bool) {
    && UniqueIds(users)
    && EmailsUnique(users)
    && forall i :: 0 <= i < |users| ==> Valid(users[i].fields, isEmail)
  }

  /** Under the store invariant every stored role is USER, ADMIN or MANAGER. */
  lemma StoredRolesListed(users: seq<Doc<User>>, isEmail: string -> bool, d: Doc<User>)
    requires StoreInvariant(users, isEmail)
    requires d in users
    ensures d.fields.role in {USER, ADMIN, MANAGER}
  {
    var k :| 0 <= k < |users| && users[k] == d;
    assert Valid(users[k].fields, isEmail);
  }

  /** The claims a token carries: `{email, id, role}`. */
  datatype Claims = Claims(email: Option<string>, id: Id, role: RoleValue)

  function ClaimsOf(d: Doc<User>): Claims {
    Claims(d.fields.email, d.id, d.fields.role)
  }

  function EmailIs(email: Option<string>): Doc<User> -> bool {
    (d: Doc<User>) => d.fields.email == email
  }

  /** `User.findOne({email})`. */
  function FindByEmail(users: seq<Doc<User>>, email: Option<string>): (r: Option<Doc<User>>)
    ensures r.Some? ==> r.value in users && r.value.fields.email == email
    ensures r.None? ==> forall d :: d in users ==> d.fields.email != email
  {
    FindOne(users, EmailIs(email))
  }

  /** With unique emails, the user found by email is the only one with it. */
  lemma FindByEmailUnique(users: seq<Doc<User>>, d: Doc<User>)
    requires EmailsUnique(users)
    requires d in users
    ensures FindByEmail(users, d.fields.email) == Some(d)
  {
    var r := FindByEmail(users, d.fields.email);
    assert r.Some?;
    var i :| 0 <= i < |users| && users[i] == r.value;
    var j :| 0 <= j < |users| && users[j] == d;
    if i < j {
      assert users[i].fields.email != users[j].fields.email;
    } else if j < i {
      assert users[j].fields.email != users[i].fields.email;
    }
  }
}

=== FILE: users_controller.dfy ===
/** `controllers/users.controller.js`: listing users, registering and logging
    in. Password hashing and comparison, token signing and the email-format
    check are library code and arrive as the `Services` parameter. */
module UsersController {
  import opened Wrappers
  import opened Text
  import opened AppErrors
  import opened Collection
  import opened Pagination
  import opened UserModel
  import opened AvatarUpload

  /** The foreign calls: `bcrypt.hash(password, rounds)` with its random salt
      made explicit, `bcrypt.compare`, `generateJWT` and `validator.isEmail`. */
  datatype Services = Services(
    hash: (string, nat, nat) -> string,
    compare: (string, string) -> bool,
    sign: Claims -> string,
    isEmail: string -> bool)

  const SaltRounds: nat := 10

  /** bcrypt's promise: a password matches every hash made from it. */
  ghost predicate HashSound(svc: Services) {
    forall p: string, rounds: nat, salt: nat :: svc.compare(p, svc.hash(p, rounds, salt))
  }

  type Users = seq<Doc<User>>

  datatype RegisterBody = RegisterBody(
    firstName: Option<string>,
    lastName: Option<string>,
    email: Option<string>,
    password: Option<string>,
    role: Option<RoleValue>)

  datatype LoginBody = LoginBody(email: Option<string>, password: Option<string>)

  /** The `data` of a success envelope. */
  datatype UsersData = UserList(users: Users) | NewUser(user: Doc<User>) | Token(token: string)

  const UserExists := Create("user already exists", 400, FAIL)
  const CredentialsRequired := Create("email or password are require", 400, FAIL)
  const UserNotFound := Create("user not found", 400, FAIL)
  const SomethingWrong := Create("Somthing wrong", 500, ERROR)

  /** `getAllUsers`: one page of users in natural order. */
  function GetAllUsers(users: Users, q: PageQuery): (o: Outcome<UsersData>)
    ensures o.Forward? <==> Skip(q) < 0
    ensures o.Forward? ==> o.failure == Thrown(NegativeSkip)
    ensures o.Respond? ==> o.code == 200 && o.data.UserList?
    ensures o.Respond? ==> Limit(q) > 0 ==> |o.data.users| <= Limit(q)
    ensures o.Respond? ==> forall d :: d in o.data.users ==> d in users
    ensures o.Respond? ==> Skip(q) >= 0 && o.data.users == Slice(users, Skip(q) as nat, Limit(q))
  {
    match FetchPage(users, q)
    case None => Forward(Thrown(NegativeSkip))
    case Some(page) => Respond(200, UserList(page))
  }

  /** Page `p` (from 1) of size `l` lists exactly the users at positions
      `(p-1)*l` up to, not including, `p*l`; `limit=0` lists every user. */
  lemma UsersPage(users: Users, l: nat, p: nat)
    requires l >= 1 && p >= 1
    ensures var o := GetAllUsers(users, PageQuery(Some(l), Some(p)));
      && o.Respond? && o.code == 200
      && (forall k :: 0 <= k < |o.data.users| ==> o.data.users[k] == users[(p - 1) * l + k])
      && |o.data.users| == (if (p - 1) * l >= |users| then 0
                            else if p * l >= |users| then |users| - (p - 1) * l
                            else l)
    ensures GetAllUsers(users, PageQuery(Some(0), None)) == Respond(200, UserList(users))
  {
    PageWindow(users, l, p);
    assert Slice(users, 0, 0) == users[0..] == users;
  }

  /** `newUser.save()`: schema validation, then the unique indexes on `_id` and `email`. */
  function Save(users: Users, doc: Doc<User>, isEmail: string -> bool): (s: Step<UsersData, Users>)
    ensures s.outcome.Forward? ==> s.store == users
    ensures s.outcome.Respond? ==> s.store == users + [doc] && s.outcome == Respond(201, NewUser(doc))
    ensures s.outcome.Respond? <==> Valid(doc.fields, isEmail) && !HasId(users, doc.id) && FindByEmail(users, doc.fields.email).None?
  {
    if !Valid(doc.fields, isEmail) then Step(Forward(Thrown(SchemaValidation)), users)
    else if HasId(users, doc.id) || FindByEmail(users, doc.fields.email).Some? then Step(Forward(Thrown(DuplicateKey)), users)
    else Step(Respond(201, NewUser(doc)), users + [doc])
  }

  /** The document `register` builds before saving it: the hashed password,
      the stored file's name as avatar, and the token signed on the
      constructed user's `{email, id, role}`. */
  function NewDoc(body: RegisterBody, file: StoredFile, svc: Services, salt: nat, newId: Id): (d: Doc<User>)
    requires body.password.Some?
    ensures d.id == newId
    ensures d.fields.firstName == body.firstName && d.fields.lastName == body.lastName && d.fields.email == body.email
    ensures d.fields.password == Some(svc.hash(body.password.value, SaltRounds, salt))
    ensures d.fields.avatar == file.filename
    ensures d.fields.role == body.role.GetOr(DefaultRole)
    ensures d.fields.token == Some(svc.sign(ClaimsOf(d)))
  {
    var hashed := svc.hash(body.password.value, SaltRounds, salt);
    var user := Construct(UserFields(body.firstName, body.lastName, body.email, Some(hashed), body.role, Some(file.filename)));
    var token := svc.sign(ClaimsOf(Doc(newId, user)));
    Doc(newId, user.(token := Some(token)))
  }

  /** `register`. A missing password makes bcrypt throw; a missing upload
      makes reading `req.file.filename` throw. */
  function Register(users: Users, body: RegisterBody, file: Option<StoredFile>, svc: Services, salt: nat, newId: Id): (s: Step<UsersData, Users>)
    ensures s.outcome.Forward? ==> s.store == users
    ensures s.outcome.Respond? ==> s.outcome.code == 201 && s.outcome.data.NewUser? && s.store == users + [s.outcome.data.user]
    ensures s.outcome.Respond? ==> file.Some? && s.outcome.data.user.fields.avatar == file.value.filename
  {
    if FindByEmail(users, body.email).Some? then Step(Forward(Raised(UserExists)), users)
    else if body.password.None? then Step(Forward(Thrown(HashArguments)), users)
    else if file.None? then Step(Forward(Thrown(MissingUpload)), users)
    else Save(users, NewDoc(body, file.value, svc, salt, newId), svc.isEmail)
  }

  /** An email already in the store stops registration with "user already
      exists" before any hashing, signing or saving: the result is the same
      whatever the services, salt and fresh id, and the store is untouched. */
  lemma RegisterExistingEmail(users: Users, body: RegisterBody, file: Option<StoredFile>,
                              svc1: Services, salt1: nat, id1: Id, svc2: Services, salt2: nat, id2: Id)
    requires FindByEmail(users, body.email).Some?
    ensures Register(users, body, file, svc1, salt1, id1) == Step(Forward(Raised(UserExists)), users)
    ensures Register(users, body, file, svc1, salt1, id1) == Register(users, body, file, svc2, salt2, id2)
  {
  }

  /** Registration succeeds exactly when the email is new, a password and an
      upload are present, the first name is non-empty, the role (defaulted to
      USER) is listed, a given email passes the format check, and the fresh id
      is unused. */
  lemma RegisterSucceedsIff(users: Users, body: RegisterBody, file: Option<StoredFile>, svc: Services, salt: nat, newId: Id)
    ensures Register(users, body, file, svc, salt, newId).outcome.Respond?
        <==> && FindByEmail(users, body.email).None?
             && body.password.Some?
             && file.Some?
             && Truthy(body.firstName)
             && Listed(body.role.GetOr(DefaultRole))
             && (body.email.Some? ==> svc.isEmail(body.email.value))
             && !HasId(users, newId)
  {
    if FindByEmail(users, body.email).None? && body.password.Some? && file.Some? {
      var d := NewDoc(body, file.value, svc, salt, newId);
      assert d.fields.email == body.email;
      assert FindByEmail(users, d.fields.email).None?;
    }
  }

  /** What a successful registration stores: the hash of the password (never
      the password itself is passed on), the uploaded file's name as avatar,
      the role defaulted to USER, and a token signed on the stored user's
      `{email, id, role}`. */
  lemma RegisterStores(users: Users, body: RegisterBody, file: Option<StoredFile>, svc: Services, salt: nat, newId: Id)
    requires Register(users, body, file, svc, salt, newId).outcome.Respond?
    ensures var d := Register(users, body, file, svc, salt, newId).outcome.data.user;
      && body.password.Some? && file.Some?
      && d.id == newId
      && d.fields.password == Some(svc.hash(body.password.value, SaltRounds, salt))
      && d.fields.avatar == file.value.filename
      && d.fields.role == body.role.GetOr(DefaultRole)
      && d.fields.email == body.email
      && d.fields.token == Some(svc.sign(ClaimsOf(d)))
  {
  }

  /** Registration keeps the users collection's invariant: unique ids, unique
      emails, every user valid (so every role listed). */
  lemma RegisterPreservesInvariant(users: Users, body: RegisterBody, file: Option<StoredFile>, svc: Services, salt: nat, newId: Id)
    requires StoreInvariant(users, svc.isEmail)
    ensures StoreInvariant(Register(users, body, file, svc, salt, newId).store, svc.isEmail)
  {
    var s := Register(users, body, file, svc, salt, newId);
    if s.outcome.Respond? {
      var d := s.outcome.data.user;
      assert !HasId(users, d.id);
      assert FindByEmail(users, d.fields.email).None?;
      var all := users + [d];
      forall i, j | 0 <= i < j < |all|
        ensures all[i].id != all[j].id && all[i].fields.email != all[j].fields.email
      {
        if j == |users| {
          assert all[i] == users[i];
          assert users[i] in users;
        }
      }
    }
  }

  /** `login`. The credentials check rejects only when BOTH fields are falsy;
      bcrypt throws on a missing password or a stored user without one; a
      mismatch is reported as a 500. */
  function Login(users: Users, body: LoginBody, svc: Services): (o: Outcome<UsersData>)
    ensures o.Respond? ==> o.code == 200 && o.data.Token?
    ensures o.Forward? ==> o.failure in {Raised(CredentialsRequired), Raised(UserNotFound), Raised(SomethingWrong), Thrown(CompareArguments)}
  {
    if !Truthy(body.email) && !Truthy(body.password) then Forward(Raised(CredentialsRequired))
    else
      match FindByEmail(users, body.email)
      case None => Forward(Raised(UserNotFound))
      case Some(d) =>
        if body.password.None? || d.fields.password.None? then Forward(Thrown(CompareArguments))
        else if svc.compare(body.password.value, d.fields.password.value) then Respond(200, Token(svc.sign(ClaimsOf(d))))
        else Forward(Raised(SomethingWrong))
  }

  /** The credentials error is produced exactly when email and password are
      both falsy; an email with an empty password gets past it. */
  lemma CredentialsRequiredIff(users: Users, body: LoginBody, svc: Services)
    ensures Login(users, body, svc) == Forward(Raised(CredentialsRequired))
        <==> !Truthy(body.email) && !Truthy(body.password)
  {
  }

  /** Concretely: `{email: "a@b.com", password: ""}` is not refused for missing credentials. */
  lemma EmptyPasswordPassesCheck(users: Users, svc: Services)
    ensures Login(users, LoginBody(Some("a@b.com"), Some("")), svc) != Forward(Raised(CredentialsRequired))
  {
    CredentialsRequiredIff(users, LoginBody(Some("a@b.com"), Some("")), svc);
  }

  /** Past the credentials check, an unknown email is "user not found". */
  lemma LoginUnknownEmail(users: Users, body: LoginBody, svc: Services)
    requires Truthy(body.email) || Truthy(body.password)
    ensures Login(users, body, svc) == Forward(Raised(UserNotFound)) <==> FindByEmail(users, body.email).None?
  {
  }

  /** For a found user with a stored hash, a matching password yields a token
      on that user's `{email, id, role}` and a mismatch yields the 500 error. */
  lemma LoginPasswordCheck(users: Users, body: LoginBody, svc: Services, d: Doc<User>)
    requires Truthy(body.email) || Truthy(body.password)
    requires FindByEmail(users, body.email) == Some(d)
    requires body.password.Some? && d.fields.password.Some?
    ensures svc.compare(body.password.value, d.fields.password.value) ==>
      Login(users, body, svc) == Respond(200, Token(svc.sign(ClaimsOf(d))))
    ensures !svc.compare(body.password.value, d.fields.password.value) ==>
      Login(users, body, svc) == Forward(Raised(SomethingWrong))
  {
  }

  /** Register then log in with the same email and password: with a sound
      hasher the login succeeds with a token on exactly the claims the stored
      user's own token was signed on. */
  lemma RegisterThenLogin(users: Users, body: RegisterBody, file: Option<StoredFile>, svc: Services, salt: nat, newId: Id)
    requires HashSound(svc)
    requires Truthy(body.email) || Truthy(body.password)
    requires Register(users, body, file, svc, salt, newId).outcome.Respond?
    ensures var s := Register(users, body, file, svc, salt, newId);
      var d := s.outcome.data.user;
      && d.fields.token.Some?
      && Login(s.store, LoginBody(body.email, body.password), svc) == Respond(200, Token(svc.sign(ClaimsOf(d))))
      && d.fields.token.value == svc.sign(ClaimsOf(d))
  {
    var s := Register(users, body, file, svc, salt, newId);
    var d := s.outcome.data.user;
    RegisterStores(users, body, file, svc, salt, newId);
    assert FindByEmail(users, body.email).None?;
    FindOneAppend(users, d, EmailIs(body.email));
    assert FindByEmail(s.store, body.email) == Some(d);
    assert svc.compare(body.password.value, svc.hash(body.password.value, SaltRounds, salt));
  }
}

=== FILE: users_routes.dfy ===
/** The three user routes of `routes/users.route.js` with their middleware
    order: `GET /` runs the token gate first, `POST /register` runs the avatar
    upload first, `POST /login` runs the handler alone. */
module UsersRoutes {
  import opened Wrappers
  import opened Text
  import opened AppErrors
  import opened Collection
  import opened UserModel
  import opened VerifyToken
  import opened AvatarUpload
  import opened UsersController
  import opened Pagination

  /** `GET /`: `verifyToken`, then `getAllUsers`. */
  function ListUsers(req: Request, users: Users, verify: string -> Option<Claims>): (o: Outcome<UsersData>)
    ensures o.Respond? ==> Truthy(AuthorizationHeader(req.headers)) && o.data.UserList?
    ensures o.Forward? ==> o.failure in {Raised(TokenRequired), Raised(InvalidToken), Thrown(NegativeSkip)}
    ensures Gate(req, verify).Halt? ==> o == Forward(Gate(req, verify).failure)
    ensures Gate(req, verify).Proceed? ==> o == GetAllUsers(users, req.query)
  {
    match Gate(req, verify)
    case Halt(failure) => Forward(failure)
    case Proceed(r) => GetAllUsers(users, r.query)
  }

  /** `POST /register`: `upload.single('avatar')`, then `register`. */
  function RegisterRoute(users: Users, body: RegisterBody, part: Option<FilePart>, now: nat,
                         svc: Services, salt: nat, newId: Id): (s: Step<UsersData, Users>)
    ensures s.outcome.Forward? ==> s.store == users
    ensures Single(part, now).Halt? ==> s.outcome == Forward(Single(part, now).failure)
    ensures Single(part, now).Proceed? ==> s == Register(users, body, Single(part, now).value, svc, salt, newId)
    ensures s.outcome.Respond? ==>
      && part.Some?
      && FileFilter(part.value).accept
      && s.outcome.data.NewUser?
      && s.store == users + [s.outcome.data.user]
      && s.outcome.data.user.fields.avatar == Filename(part.value, now)
  {
    match Single(part, now)
    case Halt(failure) => Step(Forward(failure), users)
    case Proceed(file) => Register(users, body, file, svc, salt, newId)
  }

  /** `POST /login`: no gate in front of it, so it never answers with the
      gate's 401 errors, and its answer does not depend on the request's
      headers. */
  function LoginRoute(req: Request, users: Users, body: LoginBody, svc: Services): (o: Outcome<UsersData>)
    ensures o != Forward(Raised(TokenRequired)) && o != Forward(Raised(InvalidToken))
    ensures o.Respond? ==> o.code == 200 && o.data.Token?
  {
    Login(users, body, svc)
  }

  /** Without an Authorization header the listing answers "token is require"
      and shows nothing, whatever the store holds. */
  lemma ListingNeedsToken(req: Request, users1: Users, users2: Users, verify: string -> Option<Claims>)
    requires !Truthy(AuthorizationHeader(req.headers))
    ensures ListUsers(req, users1, verify) == ListUsers(req, users2, verify) == Forward(Raised(TokenRequired))
  {
  }

  /** The upload filter runs before registration: a named non-image avatar
      is refused with the image error even when the email is already taken,
      and nothing is stored. A part with an empty file name never reaches the
      filter, so registration goes on as if no file had been sent. */
  lemma NonImageStopsRegistration(users: Users, body: RegisterBody, f: FilePart, now: nat, svc: Services, salt: nat, newId: Id)
    requires f.fieldname == FieldName
    requires !(f.mimetype == "image" || IsPrefix("image/", f.mimetype))
    ensures f.originalname != "" ==>
      RegisterRoute(users, body, Some(f), now, svc, salt, newId) == Step(Forward(Raised(NotAnImage)), users)
    ensures f.originalname == "" ==>
      RegisterRoute(users, body, Some(f), now, svc, salt, newId) == Register(users, body, None, svc, salt, newId)
  {
    SingleAvatarIff(f, now);
  }

  /** Login does not look at headers: any two requests give the same answer. */
  lemma LoginUnprotected(req1: Request, req2: Request, users: Users, body: LoginBody, svc: Services)
    ensures LoginRoute(req1, users, body, svc) == LoginRoute(req2, users, body, svc)
  {
  }

  /** A registered avatar is stored under its generated name: the user's
      avatar is `user-<now>.<subtype>`, never the client's file name. */
  lemma RegisteredAvatarName(users: Users, body: RegisterBody, f: FilePart, now: nat, svc: Services, salt: nat, newId: Id)
    requires RegisterRoute(users, body, Some(f), now, svc, salt, newId).outcome.Respond?
    ensures RegisterRoute(users, body, Some(f), now, svc, salt, newId).outcome.data.user.fields.avatar == Filename(f, now)
  {
    var file := Single(Some(f), now);
    RegisterStores(users, body, file.value, svc, salt, newId);
  }

  /** End to end: the token a login returns, sent back as `Bearer <token>`
      while it is still valid, opens the listing with `currentUser` set to the
      logged-in user's claims. */
  lemma LoginTokenOpensListing(users: Users, body: LoginBody, svc: Services, req: Request,
                               verify: string -> Option<Claims>, d: Doc<User>)
    requires Truthy(body.email) || Truthy(body.password)
    requires FindByEmail(users, body.email) == Some(d)
    requires body.password.Some? && d.fields.password.Some?
    requires svc.compare(body.password.value, d.fields.password.value)
    requires ' ' !in svc.sign(ClaimsOf(d))
    requires verify(svc.sign(ClaimsOf(d))) == Some(ClaimsOf(d))
    requires !Truthy(Lookup(req.headers, "Authorization"))
    requires Lookup(req.headers, "authorization") == Some("Bearer " + svc.sign(ClaimsOf(d)))
    ensures LoginRoute(req, users, body, svc) == Respond(200, Token(svc.sign(ClaimsOf(d))))
    ensures Gate(req, verify) == Proceed(req.(currentUser := Some(ClaimsOf(d))))
    ensures ListUsers(req, users, verify) == GetAllUsers(users, req.query)
  {
    LoginPasswordCheck(users, body, svc, d);
    AcceptedTokenOpensGate(req, verify, svc.sign(ClaimsOf(d)), ClaimsOf(d));
  }

  /** End to end through the three routes. A new user who sends a named image
      under `avatar` is registered with the generated file name as avatar;
      logging in with the same email and password returns a token on the
      stored user's claims; and that token, sent back while valid, opens the
      listing, where `limit=0` shows every user with the new one last. */
  lemma RegisterLoginList(users: Users, body: RegisterBody, f: FilePart, now: nat, svc: Services, salt: nat,
                          newId: Id, req: Request, verify: string -> Option<Claims>)
    requires HashSound(svc)
    requires f.fieldname == FieldName && f.originalname != "" && IsPrefix("image/", f.mimetype)
    requires FindByEmail(users, body.email).None? && !HasId(users, newId)
    requires body.password.Some? && Truthy(body.firstName) && Listed(body.role.GetOr(DefaultRole))
    requires body.email.Some? ==> svc.isEmail(body.email.value)
    requires Truthy(body.email) || Truthy(body.password)
    requires var token := svc.sign(Claims(body.email, newId, body.role.GetOr(DefaultRole)));
      && ' ' !in token
      && verify(token) == Some(Claims(body.email, newId, body.role.GetOr(DefaultRole)))
      && !Truthy(Lookup(req.headers, "Authorization"))
      && Lookup(req.headers, "authorization") == Some("Bearer " + token)
    requires req.query == PageQuery(Some(0), None)
    ensures var s := RegisterRoute(users, body, Some(f), now, svc, salt, newId);
      var claims := Claims(body.email, newId, body.role.GetOr(DefaultRole));
      && s.outcome.Respond?
      && s.outcome.data.user.fields.avatar == Filename(f, now)
      && LoginRoute(req, s.store, LoginBody(body.email, body.password), svc) == Respond(200, Token(svc.sign(claims)))
      && ListUsers(req, s.store, verify) == Respond(200, UserList(users + [s.outcome.data.user]))
      && Gate(req, verify) == Proceed(req.(currentUser := Some(claims)))
  {
    SingleAvatarIff(f, now);
    var file := Single(Some(f), now).value;
    RegisterSucceedsIff(users, body, file, svc, salt, newId);
    var s := RegisterRoute(users, body, Some(f), now, svc, salt, newId);
    assert s == Register(users, body, file, svc, salt, newId);
    RegisterStores(users, body, file, svc, salt, newId);
    RegisterThenLogin(users, body, file, svc, salt, newId);
    var d := s.outcome.data.user;
    assert ClaimsOf(d) == Claims(body.email, newId, body.role.GetOr(DefaultRole));
    AcceptedTokenOpensGate(req, verify, svc.sign(ClaimsOf(d)), ClaimsOf(d));
    UsersPage(s.store, 1, 1);
  }
}

=== FILE: validation_schema.dfy ===
/** `middleware/validationSchema.js`: the course body checks.
    `title` must be non-empty and at least 2 characters long; `price` must be
    non-empty. express-validator runs every check of a chain (no bail), in
    order, and reports each failure; a failure without its own message says
    "Invalid value". A missing field is checked as `""`. */
module ValidationSchema {
  import opened Wrappers
  import opened JsonValue
  import opened AppErrors

  type Body = map<string, Value>

  const InvalidValue := "Invalid value"
  const PriceRequired := "price is required"
  const TitleMinLength: nat := 2

  /** The text a validator checks for a field. */
  function FieldText(body: Body, key: string): string {
    if key in body then ToText(body[key]) else ""
  }

  /** `body("title").notEmpty().isLength({ min: 2 })`. */
  function TitleErrors(body: Body): (errs: seq<FieldError>)
    ensures forall e :: e in errs ==> e.path == "title" && e.msg == InvalidValue
  {
    var t := FieldText(body, "title");
    var err := FieldError("title", InvalidValue, Lookup(body, "title"));
    (if |t| == 0 then [err] else []) + (if |t| < TitleMinLength then [err] else [])
  }

  /** `body("price").notEmpty().withMessage("price is required")`. */
  function PriceErrors(body: Body): (errs: seq<FieldError>)
    ensures forall e :: e in errs ==> e.path == "price" && e.msg == PriceRequired
  {
    if |FieldText(body, "price")| == 0 then [FieldError("price", PriceRequired, Lookup(body, "price"))] else []
  }

  /** `validationResult(req)` after the schema: title errors, then price errors. */
  function Validate(body: Body): (errs: seq<FieldError>)
    ensures forall e :: e in errs ==> e.path in {"title", "price"}
  {
    TitleErrors(body) + PriceErrors(body)
  }

  /** A body passes exactly when its title has at least two characters and its price is non-empty. */
  lemma ValidIff(body: Body)
    ensures Validate(body) == [] <==> |FieldText(body, "title")| >= TitleMinLength && |FieldText(body, "price")| > 0
  {
  }

  /** An empty or missing title fails twice (not empty, then too short); a
      one-character title fails once. */
  lemma TitleErrorCount(body: Body)
    ensures |FieldText(body, "title")| == 0 ==> |TitleErrors(body)| == 2
    ensures |FieldText(body, "title")| == 1 ==> |TitleErrors(body)| == 1
    ensures |FieldText(body, "title")| >= 2 ==> TitleErrors(body) == []
  {
  }

  /** An empty or missing price fails with "price is required"; any other
      price passes, whatever it is. */
  lemma PriceCheck(body: Body)
    ensures |FieldText(body, "price")| == 0 <==> FieldError("price", PriceRequired, Lookup(body, "price")) in Validate(body)
    ensures |FieldText(body, "price")| > 0 ==> PriceErrors(body) == []
  {
  }

  /** Numbers always pass the price check, negative and fractional ones
      included; so do strings such as "abc". */
  lemma AnyNumberIsAPrice(body: Body, n: NumberText)
    requires Lookup(body, "price") == Some(Num(n))
    ensures PriceErrors(body) == []
  {
  }

  /** A nested object is read as "[object Object]", which is long enough for
      both checks: a body whose title and price are objects passes. */
  lemma ObjectsPass(body: Body)
    requires Lookup(body, "title") == Some(Obj) && Lookup(body, "price") == Some(Obj)
    ensures Validate(body) == []
  {
  }

  /** Only `title` and `price` are looked at: bodies that agree on those two
      fields get the same errors. */
  lemma OtherFieldsIgnored(b1: Body, b2: Body)
    requires Lookup(b1, "title") == Lookup(b2, "title")
    requires Lookup(b1, "price") == Lookup(b2, "price")
    ensures Validate(b1) == Validate(b2)
  {
  }
}

=== FILE: verify_token.dfy ===
/** The authentication gate of `middleware/verifyToken.js`: read the
    Authorization header, take its second space-separated word as the token,
    and either attach the verified claims to the request or forward a 401. */
module VerifyToken {
  import opened Wrappers
  import opened Text
  import opened AppErrors
  import opened UserModel
  import opened Pagination

  /** The parts of a request the user routes read. */
  datatype Request = Request(headers: map<string, string>, query: PageQuery, currentUser: Option<Claims>)

  const TokenRequired := Create("token is require", 401, ERROR)
  const InvalidToken := Create("Invalid token", 401, ERROR)

  /** `req.headers["Authorization"] || req.headers["authorization"]`. */
  function AuthorizationHeader(headers: map<string, string>): (r: Option<string>)
    ensures Truthy(r) <==> Truthy(Lookup(headers, "Authorization")) || Truthy(Lookup(headers, "authorization"))
    ensures Truthy(Lookup(headers, "Authorization")) ==> r == Lookup(headers, "Authorization")
    ensures !Truthy(Lookup(headers, "Authorization")) ==> r == Lookup(headers, "authorization")
  {
    Or(Lookup(headers, "Authorization"), Lookup(headers, "authorization"))
  }

  /** `header.split(" ")[1]`: defined exactly when the header contains a
      space, and then the run of non-space characters right after the first
      space (possibly empty); the first word is never looked at. */
  function BearerToken(header: string): (r: Option<string>)
    ensures r.Some? <==> ' ' in header
    ensures r.Some? ==> IndexOf(header, ' ').Some?
    ensures r.Some? ==> var rest := header[IndexOf(header, ' ').value + 1..];
      ' ' !in r.value && IsPrefix(r.value, rest) && (|r.value| == |rest| || rest[|r.value|] == ' ')
  {
    SecondPiece(header, ' ')
  }

  /** The gate. `verify` is `jwt.verify` with the server secret and the
      current time folded in: `Some(claims)` for a genuine, unexpired token. */
  function Gate(req: Request, verify: string -> Option<Claims>): (r: Flow<Request>)
    ensures r.Halt? ==> r.failure == Raised(TokenRequired) || r.failure == Raised(InvalidToken)
    ensures r.Proceed? ==> r.value.currentUser.Some? && r.value == req.(currentUser := r.value.currentUser)
  {
    var header := AuthorizationHeader(req.headers);
    if !Truthy(header) then Halt(Raised(TokenRequired))
    else
      match BearerToken(header.value)
      case None => Halt(Raised(InvalidToken))
      case Some(token) =>
        match verify(token)
        case None => Halt(Raised(InvalidToken))
        case Some(claims) => Proceed(req.(currentUser := Some(claims)))
  }

  /** "token is require" is produced exactly when neither header spelling holds
      a non-empty value; either spelling alone counts as present. */
  lemma TokenRequiredIffNoHeader(req: Request, verify: string -> Option<Claims>)
    ensures Gate(req, verify) == Halt(Raised(TokenRequired))
        <==> !Truthy(Lookup(req.headers, "Authorization")) && !Truthy(Lookup(req.headers, "authorization"))
  {
  }

  /** Without a header the verifier is never consulted: any two verifiers give the same result. */
  lemma NoHeaderSkipsVerification(req: Request, v1: string -> Option<Claims>, v2: string -> Option<Claims>)
    requires !Truthy(AuthorizationHeader(req.headers))
    ensures Gate(req, v1) == Gate(req, v2) == Halt(Raised(TokenRequired))
  {
  }

  /** The token is the second word: for a header `scheme + " " + token`
      without further spaces, `token` is what is verified, whatever the scheme. */
  lemma BearerTokenIsSecondWord(scheme: string, token: string)
    requires ' ' !in scheme && ' ' !in token
    ensures BearerToken(scheme + " " + token) == Some(token)
  {
    SplitPair(scheme, ' ', token);
    assert scheme + " " + token == scheme + [' '] + token;
  }

  /** A header with no space has no second word, so it is an invalid token. */
  lemma NoSpaceNoToken(header: string)
    requires ' ' !in header
    ensures BearerToken(header) == None
  {
    assert IndexOf(header, ' ').None?;
  }

  /** Every failure after the header check is the same "Invalid token"
      record: a missing second word and a token the verifier refuses are
      indistinguishable. */
  lemma InvalidTokenIff(req: Request, verify: string -> Option<Claims>)
    ensures Gate(req, verify) == Halt(Raised(InvalidToken))
        <==> var h := AuthorizationHeader(req.headers);
             Truthy(h) && (BearerToken(h.value).None? || verify(BearerToken(h.value).value).None?)
  {
  }

  /** The request proceeds with `currentUser` set to `claims`, and nothing else
      changed, exactly when the verifier decodes the second word to `claims`. */
  lemma ProceedIff(req: Request, verify: string -> Option<Claims>, claims: Claims)
    ensures Gate(req, verify) == Proceed(req.(currentUser := Some(claims)))
        <==> var h := AuthorizationHeader(req.headers);
             Truthy(h) && BearerToken(h.value).Some? && verify(BearerToken(h.value).value) == Some(claims)
  {
  }

  /** The scheme word is never checked: under `"Foo abc"` the gate verifies `abc`
      exactly as it would under `"Bearer abc"`. */
  lemma SchemeIgnored(req: Request, verify: string -> Option<Claims>, scheme: string, token: string)
    requires ' ' !in scheme && ' ' !in token && scheme != ""
    requires req.headers == map["authorization" := scheme + " " + token]
    ensures Gate(req, verify).Proceed? <==> verify(token).Some?
    ensures Gate(req, verify).Proceed? ==> Gate(req, verify).value.currentUser == verify(token)
    ensures Gate(req, verify).Halt? ==> Gate(req, verify).failure == Raised(InvalidToken)
  {
    BearerTokenIsSecondWord(scheme, token);
    assert "Authorization"[0] != "authorization"[0];
    assert AuthorizationHeader(req.headers) == Some(scheme + " " + token);
  }

  /** A token the verifier accepts for `claims` opens the gate with exactly those claims. */
  lemma AcceptedTokenOpensGate(req: Request, verify: string -> Option<Claims>, token: string, claims: Claims)
    requires ' ' !in token
    requires verify(token) == Some(claims)
    requires !Truthy(Lookup(req.headers, "Authorization"))
    requires Lookup(req.headers, "authorization") == Some("Bearer " + token)
    ensures Gate(req, verify) == Proceed(req.(currentUser := Some(claims)))
  {
    BearerTokenIsSecondWord("Bearer", token);
    assert "Bearer" + " " + token == "Bearer " + token;
  }
}

=== FILE: wrappers.dfy ===
/** Optional values. `None` stands for JavaScript's `undefined`: a missing
    body field, a missing header, a missing array element. */
module Wrappers {

  datatype Option<+T> = None | Some(value: T) {

    /** The wrapped value, or `default` when there is none (JavaScript's `x || d`
        for values that are never falsy when present). */
    function GetOr(default: T): T {
      match this
      case Some(v) => v
      case None => default
    }
  }

  /** `obj[key]` on a string-keyed object: `None` when the key is absent. */
  function Lookup<K, V>(m: map<K, V>, key: K): (r: Option<V>)
    ensures r.Some? <==> key in m
    ensures r.Some? ==> r.value == m[key]
  {
    if key in m then Some(m[key]) else None
  }
}
